=== FILE: README.md ===
# standblog in Dafny

A Dafny model of the application logic of *standblog*, a Django blog.
The model covers publishing articles with categories, threaded comments,
per-user likes, registration with a one-to-one user profile, profile editing
and the comment-approval admin action.

The database is one immutable value, `Store.Store`. It holds maps from primary
key to row for users, profiles, categories, articles (keyed by slug),
comments and likes, plus the auto-increment counters that hand out new ids.
The predicate `Store.Valid` collects what the schema declares together with
what the modelled operations keep:

- foreign keys exist (declared);
- article titles and usernames are unique (declared);
- a like is unique per (user, article) (declared, `unique_together`);
- the profile columns respect their `max_length` (declared);
- every user has exactly one profile: the one-to-one field allows at most one, and the `create_user_profile` hook supplies it;
- a comment's parent is an existing comment with a smaller id: the schema declares only a self-referencing key, and `add_comment` keeps this ordering because a parent must already exist when its reply is saved.

The views that may write (`like_article`, `add_comment`, `user_register`, `user_edit`) are total functions from the store and the request to a `Web.Step`: the store afterwards and the response. A response is a redirect, a rendered page, a 404 or a server error (an uncaught exception). Every view treats a session whose user row is gone as anonymous (`Web.KnownUser`), as the authentication middleware does. The read-only views compute only what their templates receive. `Interaction.ArticleDetail` returns the detail context, or nothing for a 404. `Queries.ArticleList`, `Queries.CategoryArticles`, `Queries.Search`, `Queries.Home`, `Queries.ArticleComments` and `Queries.SidebarData` return the querysets as sequences or sets of keys. The admin's operations (saving a new article, the approval action and the cascading deletes) are functions from store to store. Every modelled writing view and admin operation is shown to keep `Valid`. `Accounts.ResaveUser` and `Accounts.CreateUser` are building blocks whose callers keep `Valid`: `Accounts.CreateUserKeepsValid` needs a free username, and `Accounts.EditKeepsValid` needs the username unchanged.

Modules, organised by concern:

| module | file | models |
|---|---|---|
| `Base` | base.dfy | `Option`, `Min` |
| `Text` | text.dfy | Python `str.strip` whitespace, `int()` parsing, case-insensitive substring search |
| `Ordering` | ordering.dfy | newest-first ordering (`ordering = ("-created",)`) and slicing `[:n]` |
| `Store` | store.dfy | rows, the store, schema constraints |
| `Web` | web.dfy | requesters, requests, responses |
| `Interaction` | interaction.dfy | `like_article`, `add_comment`, the like state of `ArticleDetailView` |
| `Cascade` | cascade.dfy | `on_delete=CASCADE` for comments, articles and users |
| `Articles` | articles.dfy | `Article.save`: slug defaulting, status default, uniqueness |
| `Queries` | queries.dfy | list, category, search and home querysets; the sidebar context processors |
| `Accounts` | accounts.dfy | `RegistrationForm`, `user_register`, `user_edit`, the profile hooks |
| `Moderation` | moderation.dfy | `CommentAdmin.approve_comments` |

Two details of the code are worth noting:

- A reply's parent is looked up by id alone, so a parent may belong to another article. `Interaction.ParentMayBelongToAnotherArticle` shows this.
- The only custom admin action activates comments. A comment can still be deactivated by unticking `is_active` in the admin change form, which is not modelled.

## Model

| member | source | states |
|---|---|---|
| Store.StatusFromCode | blog/models.py:36-40 | exactly the codes 'd' and 'p' are statuses, and each reads back to its own code |
| Store.AtMostOneLikePerPair | blog/models.py:125 | under `unique_together` a (user, article) pair has at most one like row, and is liked exactly when it has one |
| Ordering.SortNewestFirst | blog/models.py:57 | the result lists every key exactly once, ordered by creation time, newest first |
| Ordering.TakeNewestFirst | blog/context_processors.py:10 | the first `n` of a newest-first list hold `min(n, total)` keys, in order, and no key left out is newer than one kept |
| Text.ContainsIgnoresQueryCase | blog/views.py:137 | `icontains` gives the same answer for a query and its lower-cased form |
| Text.ParseDecimalText | blog/views.py:195 | the decimal text of any id converts back to that id |
| Text.ParseRejectsLetters | blog/views.py:195 | a text holding a character that is not whitespace, a digit or a sign does not convert to an integer |
| Interaction.ToggleLike | blog/views.py:210-229 | requests without an existing session user go to login; unknown or unpublished slugs are a 404 with nothing changed; otherwise the pair's liked state flips, only the likes change, and the store redirects to the article |
| Interaction.ToggleKeepsOtherLikes | blog/views.py:222-226 | every like row of another pair survives a toggle unchanged, and no row of another pair is added |
| Interaction.LikedByIffPair | blog/views.py:77 | `filter(article, user).exists()` holds exactly when the pair is among the recorded like pairs |
| Interaction.ToggleFlipsPair | blog/views.py:222-226 | the set of liked pairs gains the pair when it was absent and loses it when present, and nothing else |
| Interaction.ToggleTwiceRestoresPairs | blog/views.py:222-226 | two toggles by the same user on the same article restore the set of liked pairs |
| Interaction.ToggleLeavesOneOrNone | blog/views.py:222-226 | after a toggle the pair has exactly one like row if it had none before, and none if it had one |
| Interaction.ToggleMovesCountByOne | blog/views.py:222-226 | the article's like count goes down by one on an unlike and up by one on a like |
| Interaction.ToggleKeepsOtherArticles | blog/views.py:222-226 | the like rows of every other article are unchanged |
| Interaction.ToggleKeepsValid | blog/views.py:222-226 | a toggle keeps every schema constraint, `unique_together` included |
| Interaction.CleanBody | blog/views.py:184-185 | the comment form is valid exactly when the posted body is not blank and holds no null character, and the stripped body is saved |
| Interaction.ResolveParent | blog/views.py:191-199 | a parent is linked exactly when `parent_id` is non-empty, converts to an integer and names an existing comment; a non-numeric `parent_id` is an escaping error |
| Interaction.NewComment | blog/models.py:100 | a new comment is active |
| Interaction.AddComment | blog/views.py:176-207 | requests without an existing session user go to login; unknown or unpublished slugs are a 404; a non-POST or an invalid form redirects to the article with nothing changed; a valid form whose `parent_id` does not parse as an integer is a server error with nothing changed; the store changes only on a save that redirects to the comments section, and only in its comments |
| Interaction.ValidPostAddsOneComment | blog/views.py:185-204 | a valid POST adds exactly one active comment under a fresh id, with the request's article, user, stripped body and resolved parent, and keeps every other comment |
| Interaction.ParentLinkedIffResolves | blog/views.py:191-199 | the new comment's parent is comment `n` exactly when `parent_id` converts to `n` and `n` exists |
| Interaction.ParentMayBelongToAnotherArticle | blog/views.py:195 | a reply links a parent from another article just as well: there is no same-article check |
| Interaction.InsertCommentKeepsReferences | blog/models.py:94-96 | inserting a comment whose references exist under the next id keeps the comment foreign keys and the parent-before-child order |
| Interaction.InsertCommentKeepsValid | blog/views.py:202 | saving such a comment keeps every schema constraint |
| Interaction.AddCommentKeepsValid | blog/views.py:183-207 | `add_comment` keeps every schema constraint |
| Interaction.MalformedParentIsServerError | blog/views.py:193-199 | as written, `parent_id` "abc" with a valid body makes the request fail with nothing saved |
| Interaction.AddCommentSoft | blog/views.py:191-199 | the corrected view never fails with a server error |
| Interaction.AddCommentSoftAgrees | blog/views.py:191-199 | the corrected view behaves as written whenever the original does not fail, and otherwise saves a top-level comment |
| Interaction.AddCommentSoftKeepsValid | blog/views.py:183-207 | the corrected view keeps every schema constraint |
| Interaction.ArticleDetail | blog/views.py:57-83 | the detail page exists exactly for published articles and shows the article stored under the slug; `is_liked` is false unless the session names an existing user, and otherwise is membership of the pair among the liked pairs; `total_likes` is the number of the article's like rows |
| Interaction.TotalLikesCountsLikers | blog/views.py:83 | with one like row per pair, the article's like count equals the number of users `v` for which (v, article) is a liked pair |
| Interaction.DetailAfterToggle | blog/views.py:75-83 | after a toggle, `is_liked` flips and `total_likes` moves by one in the same direction |
| Cascade.Thread | blog/models.py:96 | the thread of a set of comments is the least set of comments that contains the set and every reply to its members |
| Cascade.WithoutClosedKeepsParents | blog/models.py:96 | removing a reply-closed set of comments leaves no reply whose parent is gone |
| Cascade.DeleteComment | blog/models.py:96 | deleting a comment removes it and its direct replies; the comments that remain are unchanged, and nothing else changes |
| Cascade.DeleteCommentRemovesThread | blog/models.py:96 | exactly the comment's whole reply thread is removed |
| Cascade.DeleteCommentKeepsValid | blog/models.py:96 | deleting a comment keeps every schema constraint |
| Cascade.DeleteArticle | blog/models.py:94-118 | deleting an article removes it, its likes and its comments; every like of another article stays |
| Cascade.DeleteArticleRemovesThread | blog/models.py:94-96 | the comments removed are exactly the thread of the article's comments |
| Cascade.DeleteArticleKeepsValid | blog/models.py:94-118 | deleting an article keeps every schema constraint |
| Cascade.DeleteUser | blog/models.py:43-117 | deleting a user removes the user, their profile, articles, comments and likes; other users and the categories stay |
| Cascade.DeleteUserRemovesExactly | blog/models.py:43-118 | after deleting a user the articles left are exactly those by other authors, the comments left are exactly those outside the reply threads of the user's comments and of comments on the user's articles, a like survives exactly when neither its user is the deleted one nor its article one of theirs, and the profiles lose exactly the user's |
| Cascade.DeleteUserKeepsValid | accounts/models.py:16 | deleting a user keeps every schema constraint, the one-to-one profile included |
| Articles.DefaultSlug | blog/models.py:64-70 | an empty slug is replaced by the slugified title, and a non-empty slug is kept |
| Articles.SlugStableAcrossSaves | blog/models.py:68-69 | once set, a slug survives any later save whatever the title becomes |
| Articles.SaveNewArticle | blog/models.py:40-70 | the insert fails exactly when the defaulted slug or the title is taken, or a foreign key dangles; otherwise only the new article is added, carrying the form's title, body, image, author and categories, the given status or the draft default, and the save time as created and updated |
| Articles.NewArticleIsDraft | blog/models.py:40 | an article saved without a status is a draft |
| Articles.SaveNewArticleKeepsValid | blog/models.py:47-50 | saving keeps titles and slugs unique across drafts and published articles alike |
| Queries.ArticleList | blog/views.py:34-40 | the list holds every published article, only those, newest first |
| Queries.CategoryArticles | blog/views.py:99-107 | an unknown category is a 404; otherwise the list holds the published articles of that category, newest first |
| Queries.Search | blog/views.py:128-139 | a missing or empty `q` gives nothing; otherwise exactly the published articles whose title contains `q` ignoring case, newest first |
| Queries.SearchIgnoresQueryCase | blog/views.py:137 | the search selects the same articles for a query and its lower-cased form |
| Queries.DraftsAreNeverListed | blog/views.py:40 | a draft is never listed, found by category or search, or shown in the banner |
| Queries.ArticleComments | blog/models.py:103 | an article's comments, active or not, newest first |
| Queries.SidebarData | blog/context_processors.py:4-21 | at most five recent posts, all published, the newest ones in order; the categories are exactly those linked to a published article |
| Queries.AllCategories | blog/context_processors.py:24-27 | exactly the categories with at least one linked article of any status, each with the number of those articles |
| Queries.SidebarCategoriesWithinAll | blog/context_processors.py:14-26 | a category whose articles are all drafts is in `all_categories` but not in the sidebar; every sidebar category is in `all_categories` |
| Queries.Home | home/views.py:4-22 | every published article newest first; a banner of at most six published articles with an image, the newest such in order |
| Accounts.CleanText | accounts/forms.py:13-16 | a text field accepts exactly the posted texts that are non-blank when required, within `max_length` after stripping and free of null characters; it yields the stripped text, and reports a null character exactly when the text holds one |
| Accounts.CleanEmail | accounts/forms.py:14 | an e-mail field accepts a blank value only when optional, and otherwise exactly a valid address within the length limit and free of null characters |
| Accounts.CleanUsername | accounts/forms.py:18-23 | the username is accepted exactly when non-blank, free of null characters, at most 150 characters and not taken, and then yields the stripped name |
| Accounts.UsernameTakenIsReported | accounts/forms.py:18-23 | the "taken" error appears exactly when the name is otherwise acceptable and some user already has it |
| Accounts.CleanNewEmail | accounts/forms.py:25-30 | the e-mail is accepted exactly when a non-blank valid address without null characters that no user has; a registered address is reported as taken |
| Accounts.CleanPassword2 | accounts/forms.py:32-41 | `password2` carries the mismatch error exactly when both password fields cleaned and differ |
| Accounts.CleanRegistration | accounts/forms.py:9-41 | the form is accepted exactly when every field rule holds; the cleaned username is non-empty and at most 150 characters; a rejected form reports an error |
| Accounts.TakenUsernameIsRejected | accounts/forms.py:18-23 | a username some user already has rejects the form with an error on the username |
| Accounts.TakenEmailIsRejected | accounts/forms.py:25-30 | an address some user already has rejects the form with an error on the e-mail |
| Accounts.MismatchIffPasswordsDiffer | accounts/forms.py:38-39 | the mismatch error is on `password2` exactly when both passwords were given, non-blank and free of null characters, and differ |
| Accounts.NoMismatchWithoutTwoDifferentPasswords | accounts/forms.py:38 | equal passwords, or a missing one, never draw the mismatch error |
| Accounts.NormalizeEmail | accounts/views.py:28-32 | an address without '@' after stripping is left as given; otherwise the stripped address keeps its length, its last '@' and everything before it, differs from the stripped input only in letter case, and has no capital letter after that '@' |
| Accounts.NormalizeEmailIdempotent | accounts/views.py:28-32 | normalising an already normalised address changes nothing |
| Accounts.CreateUser | accounts/models.py:33-40 | a new user row under the next id, with the normalised e-mail, comes with a blank profile; existing users, articles, comments and likes stay |
| Accounts.CreateUserAddsOneProfile | accounts/models.py:33-40 | creating a user adds exactly one profile, for the new user, and keeps every other row |
| Accounts.CreateUserKeepsValid | accounts/views.py:28-32 | creating a user with a free username keeps every schema constraint |
| Accounts.ResaveUser | accounts/models.py:42-48 | re-saving a user replaces only that user's row and creates no profile; it fails exactly when the user has no profile row |
| Accounts.ResaveCreatesNoProfile | accounts/models.py:39 | in a valid store a re-save succeeds and the profiles still match the users one to one |
| Accounts.OneProfilePerUser | accounts/models.py:16 | a user has a profile exactly when it exists, and there are as many profiles as users |
| Accounts.Register | accounts/views.py:20-38 | a requester whose session names an existing user is sent home; a GET or an invalid POST renders the form with nothing created; the login redirect happens exactly on an acceptable POST |
| Accounts.RegisterAddsOneUser | accounts/views.py:24-34 | a valid registration adds exactly one user, with the cleaned username, the normalised cleaned e-mail and a blank profile |
| Accounts.RegisterKeepsValid | accounts/views.py:24-34 | registration keeps every schema constraint, username uniqueness included |
| Accounts.CleanUserEdit | accounts/forms.py:47-55 | the user form accepts null-free names of at most 150 characters and a blank or valid null-free e-mail of at most 254; it yields the stripped names and the normalised e-mail |
| Accounts.CleanProfileEdit | accounts/forms.py:57-65 | the profile form accepts a null-free father's name of at most 50 and a null-free code of at most 10 characters and a readable upload; without an upload the image is kept |
| Accounts.UserEdit | accounts/views.py:43-62 | requests without an existing session user go to login; a user without a profile row gets a server error; a GET renders the page; a POST saves and redirects exactly when both forms are valid, and otherwise renders the page again with nothing changed; the store changes only then, and only in the user's names, e-mail (normalised) and profile |
| Accounts.UserEditKeepsUsername | accounts/forms.py:50 | editing never changes a username or the set of users |
| Accounts.EditKeepsValid | accounts/models.py:19-20 | a profile within the column limits and an unchanged username keep every schema constraint |
| Accounts.UserEditKeepsValid | accounts/views.py:49-51 | the profile edit keeps every schema constraint |
| Moderation.ApproveComments | blog/admin.py:65-66 | every selected comment becomes active; unselected comments are unchanged, and only `is_active` changes |
| Moderation.ApproveIdempotent | blog/admin.py:66 | approving the same selection twice is the same as approving it once |
| Moderation.ApproveInSteps | blog/admin.py:66 | two approvals in a row act as one approval of both selections |
| Moderation.ApproveKeepsValid | blog/admin.py:66 | approval keeps every schema constraint |

## Left out

- HTML rendering and templates are not modelled. Neither are flash messages, or the URLs that `reverse` and `get_absolute_url` build: a response names a `Web.Page` instead.
- Pagination (`paginate_by = 3`) is not modelled. The list views return the whole queryset.
- Timestamps are abstract naturals. Ties in creation time are ordered arbitrarily, since the database's tie order is unspecified.
- `Article.updated` (`auto_now`) is set by the insert only. Later saves that refresh it are not modelled.
- The category ordering by title (blog/models.py:21) is not modelled. Categories are returned as sets and maps.
- Queries.SidebarData: the `num_articles` annotation of the sidebar's category queryset is not modelled. It counts rows of a join whose filter follows the annotation, and no template that reads it is part of this model.
- Which of the two context processors' `all_categories` keys reaches a template depends on the settings, which are not part of this model.
- `slugify` is the framework's function. It is a parameter of `Articles.DefaultSlug`.
- Articles.SaveNewArticle: does not check the title's `max_length` of 70 or the slug's length and characters. The admin form validates those before `save`. The function also covers inserting an article only: an admin edit of an existing article is covered only through `Articles.SlugStableAcrossSaves`.
- Text.ContainsIgnoringCase: folds ASCII letters only, as SQLite's `LIKE` does. Other database backends fold more letters.
- Text.ParseInt: does not accept the underscores between digits or the non-ASCII decimal digits that Python's `int()` also takes.
- Text.ParseRejectsLetters: holds of the model's parser only. Python's `int()` rejects letters too, but it accepts "1_0" as 10, which the model rejects.
- Interaction.ResolveParent: reports a `parent_id` such as "1_0" or one written in non-ASCII digits as malformed. Python's `int()` converts both, so the view would link the comment with that id instead of failing.
- Huge integer `parent_id` values beyond the database's integer range are not modelled.
- The e-mail validator and the image validator are library code. They are the parameters `emailOk` and `imageOk`.
- Editing comments in the comment admin's change form is not modelled. That form can point a comment's parent at a later comment or at the comment itself, which the parent ordering in `Store.Valid` excludes.
- Accounts.CleanNewEmail: sets no length limit on the registration e-mail. Framework versions that give form e-mail fields a default `max_length` of 320 would reject longer addresses.
- Accounts.CreateUser: stores the username as cleaned. It does not model `create_user` normalising the username to Unicode NFKC form, because the model has no Unicode tables.
- Accounts.NormalizeEmail: lower-cases the ASCII letters of the domain only. Python's `str.lower` also folds non-ASCII letters, and the model has no Unicode tables.
- Password hashing is not modelled, so the password is not stored in `Store.User`.
- The login, logout and password-change views are framework views and are not modelled.
- An uploaded image is stored under the uploaded name. Storage renaming and the `upload_to` prefix are not modelled.
- Two mutating views run concurrently are not modelled, in particular the race in `get_or_create`. Each view is one sequential step, and like uniqueness is kept as a store invariant.
- `ContactView`, `Message`, `MessageForm` and the admin display configuration are not modelled.

## Findings

| source | as written | input that shows it | evidently intended | confidence | as-written member | corrected member |
|---|---|---|---|---|---|---|
| blog/views.py:191-199 | `parent_id` goes to `Comment.objects.get(id=...)`, which converts it with `int()`. A non-numeric text raises `ValueError`, and `except Comment.DoesNotExist` does not catch it, so the request fails with a server error and no comment is saved | a valid comment body on a published article with `parent_id` = "abc" | a `parent_id` that names no comment gives a top-level comment, as the fallback branch says | medium; not executed | Interaction.MalformedParentIsServerError | Interaction.AddCommentSoft |

=== FILE: accounts.dfy ===
/**
  Accounts (accounts/forms.py, accounts/views.py, accounts/models.py):
  registration, the profile that every user row gets from the `post_save`
  hook, and the profile edit page.

  Form fields follow the framework's `CharField` cleaning: missing data
  counts as empty, the text is stripped, an empty value fails a required
  field, and a non-empty value goes through every validator of the field:
  `max_length` on the stripped text and the ban on null characters. Whether a text is
  a syntactically valid e-mail address, and whether an upload is a readable
  image, are decided by library validators and are taken as parameters.
 */
module Accounts {
  import opened Base
  import opened Text
  import opened Store
  import opened Web

  // ---------------------------------------------------------------------------
  // Form fields

  datatype FieldError = Required | TooLong | NullCharacter | InvalidEmail | InvalidImage | Taken | Mismatch

  /** A cleaned field value, or the non-empty set of errors the field reports. */
  datatype Cleaned = Ok(value: string) | Err(errors: set<FieldError>)

  function ErrorsOf(c: Cleaned): set<FieldError> {
    if c.Ok? then {} else c.errors
  }

  /** The posted text of a field; a field absent from the POST data reads as empty. */
  function Posted(raw: Option<string>): string {
    raw.GetOr("")
  }

  /**
    A form `CharField`: stripped, then checked for presence when required; a
    non-empty value then meets every validator, and all their errors are reported.
   */
  function CleanText(raw: Option<string>, required: bool, maxLength: Option<nat>): (r: Cleaned)
    ensures r.Ok? <==>
      && (!required || !IsBlank(Posted(raw)))
      && (maxLength.None? || |Strip(Posted(raw))| <= maxLength.value)
      && !HasNull(Posted(raw))
    ensures r.Ok? ==> r.value == Strip(Posted(raw)) && (maxLength.Some? ==> |r.value| <= maxLength.value)
    ensures r.Ok? && required ==> r.value != ""
    ensures Required in ErrorsOf(r) <==> required && IsBlank(Posted(raw))
    ensures NullCharacter in ErrorsOf(r) <==> HasNull(Posted(raw))
    ensures r.Err? ==> r.errors != {} && r.errors <= {Required, TooLong, NullCharacter}
  {
    StripEmptyIffBlank(Posted(raw));
    NullSurvivesStrip(Posted(raw));
    var v := Strip(Posted(raw));
    if v == "" && required then Err({Required})
    else
      var failed := (if maxLength.Some? && |v| > maxLength.value then {TooLong} else {})
        + (if HasNull(v) then {NullCharacter} else {});
      if failed == {} then Ok(v) else Err(failed)
  }

  /**
    A form `EmailField`: a stripped `CharField` whose non-empty value must pass
    the e-mail validator, the length limit when the field has one, and the
    null-character ban; the validators all run, so their errors are reported together.
   */
  function CleanEmail(raw: Option<string>, required: bool, maxLength: Option<nat>, emailOk: string -> bool): (r: Cleaned)
    ensures r.Ok? <==>
      if IsBlank(Posted(raw)) then !required
      else
        && emailOk(Strip(Posted(raw)))
        && (maxLength.None? || |Strip(Posted(raw))| <= maxLength.value)
        && !HasNull(Posted(raw))
    ensures r.Ok? ==> r.value == Strip(Posted(raw))
    ensures r.Err? ==> r.errors != {}
  {
    StripEmptyIffBlank(Posted(raw));
    NullSurvivesStrip(Posted(raw));
    var v := Strip(Posted(raw));
    if v == "" then (if required then Err({Required}) else Ok(v))
    else
      var failed := (if emailOk(v) then {} else {InvalidEmail})
        + (if maxLength.Some? && |v| > maxLength.value then {TooLong} else {})
        + (if HasNull(v) then {NullCharacter} else {});
      if failed == {} then Ok(v) else Err(failed)
  }

  // ---------------------------------------------------------------------------
  // RegistrationForm

  const UsernameMaxLength: nat := 150

  /** The registration POST data. */
  datatype RegistrationPost = RegistrationPost(
    username: Option<string>,
    email: Option<string>,
    password: Option<string>,
    password2: Option<string>)

  datatype RegistrationErrors = RegistrationErrors(
    username: set<FieldError>,
    email: set<FieldError>,
    password: set<FieldError>,
    password2: set<FieldError>)

  /** The cleaned data `user_register` hands to `create_user`. */
  datatype NewAccount = NewAccount(username: string, email: string, password: string)

  datatype RegistrationOutcome = Accepted(account: NewAccount) | Rejected(errors: RegistrationErrors)

  /** `User.objects.filter(username=...).exists()`: an exact, case-sensitive match. */
  predicate UsernameTaken(users: map<UserId, User>, name: string) {
    exists id :: id in users && users[id].username == name
  }

  /** `User.objects.filter(email=...).exists()`. */
  predicate EmailTaken(users: map<UserId, User>, email: string) {
    exists id :: id in users && users[id].email == email
  }

  /** Some non-blank text without a null character was posted: what a required `CharField` needs. */
  predicate FilledIn(raw: Option<string>) {
    !IsBlank(Posted(raw)) && !HasNull(Posted(raw))
  }

  /** Both password fields cleaned and their stripped texts differ. */
  predicate PasswordsDiffer(post: RegistrationPost) {
    && FilledIn(post.password)
    && FilledIn(post.password2)
    && Strip(Posted(post.password)) != Strip(Posted(post.password2))
  }

  /** What `is_valid()` accepts, stated field by field on the posted text. */
  predicate RegistrationAcceptable(users: map<UserId, User>, post: RegistrationPost, emailOk: string -> bool) {
    && FilledIn(post.username)
    && |Strip(Posted(post.username))| <= UsernameMaxLength
    && !UsernameTaken(users, Strip(Posted(post.username)))
    && FilledIn(post.email)
    && emailOk(Strip(Posted(post.email)))
    && !EmailTaken(users, Strip(Posted(post.email)))
    && FilledIn(post.password)
    && FilledIn(post.password2)
    && Strip(Posted(post.password)) == Strip(Posted(post.password2))
  }

  /** The `username` field and `clean_username`: required, at most 150 characters, not taken. */
  function CleanUsername(users: map<UserId, User>, raw: Option<string>): (r: Cleaned)
    ensures r.Ok? <==>
      FilledIn(raw) && |Strip(Posted(raw))| <= UsernameMaxLength && !UsernameTaken(users, Strip(Posted(raw)))
    ensures r.Ok? ==> r.value == Strip(Posted(raw)) && 0 < |r.value| <= UsernameMaxLength
    ensures r.Err? ==> r.errors != {}
  {
    var name := CleanText(raw, true, Some(UsernameMaxLength));
    if name.Ok? && UsernameTaken(users, name.value) then Err({Taken}) else name
  }

  /** `clean_username` reports a taken name exactly when the name is otherwise acceptable and some user has it. */
  lemma UsernameTakenIsReported(users: map<UserId, User>, raw: Option<string>)
    ensures Taken in ErrorsOf(CleanUsername(users, raw)) <==>
      FilledIn(raw) && |Strip(Posted(raw))| <= UsernameMaxLength && UsernameTaken(users, Strip(Posted(raw)))
  {
    var name := CleanText(raw, true, Some(UsernameMaxLength));
    if name.Ok? && UsernameTaken(users, name.value) {
      assert CleanUsername(users, raw) == Err({Taken});
    } else {
      assert CleanUsername(users, raw) == name;
      assert Taken !in ErrorsOf(name);
    }
  }

  /** The `email` field and `clean_email`: required, a valid address, not registered yet. */
  function CleanNewEmail(users: map<UserId, User>, raw: Option<string>, emailOk: string -> bool): (r: Cleaned)
    ensures r.Ok? <==>
      FilledIn(raw) && emailOk(Strip(Posted(raw))) && !EmailTaken(users, Strip(Posted(raw)))
    ensures r.Ok? ==> r.value == Strip(Posted(raw))
    ensures r.Err? ==> r.errors != {}
    ensures Taken in ErrorsOf(r) <==>
      FilledIn(raw) && emailOk(Strip(Posted(raw))) && EmailTaken(users, Strip(Posted(raw)))
  {
    var email := CleanEmail(raw, true, None, emailOk);
    if email.Ok? && EmailTaken(users, email.value) then Err({Taken}) else email
  }

  /**
    The `password2` field after `clean`: `if password and password2 and
    password != password2` adds the mismatch error to it.
   */
  function CleanPassword2(post: RegistrationPost): (r: Cleaned)
    ensures r.Ok? <==>
      FilledIn(post.password2)
      && (!FilledIn(post.password) || Strip(Posted(post.password)) == Strip(Posted(post.password2)))
    ensures r.Ok? ==> r.value == Strip(Posted(post.password2))
    ensures r.Err? ==> r.errors != {}
    ensures Mismatch in ErrorsOf(r) <==> PasswordsDiffer(post)
  {
    var password := CleanText(post.password, true, None);
    var password2 := CleanText(post.password2, true, None);
    if password.Ok? && password2.Ok? && password.value != "" && password2.value != "" && password.value != password2.value
    then Err({Mismatch}) else password2
  }

  /**
    `RegistrationForm.is_valid()`: every field cleans, including the checks
    `clean_username`, `clean_email` and `clean` add; otherwise the errors of
    each field are reported.
   */
  function CleanRegistration(users: map<UserId, User>, post: RegistrationPost, emailOk: string -> bool): (r: RegistrationOutcome)
    ensures r.Accepted? <==> RegistrationAcceptable(users, post, emailOk)
    ensures r.Accepted? ==>
      && r.account.username == Strip(Posted(post.username))
      && r.account.email == Strip(Posted(post.email))
      && r.account.password == Strip(Posted(post.password))
      && 0 < |r.account.username| <= UsernameMaxLength
    ensures r.Rejected? ==>
      r.errors.username != {} || r.errors.email != {} || r.errors.password != {} || r.errors.password2 != {}
  {
    var name := CleanUsername(users, post.username);
    var email := CleanNewEmail(users, post.email, emailOk);
    var password := CleanText(post.password, true, None);
    var password2 := CleanPassword2(post);
    if name.Ok? && email.Ok? && password.Ok? && password2.Ok? then
      Accepted(NewAccount(name.value, email.value, password.value))
    else
      Rejected(RegistrationErrors(ErrorsOf(name), ErrorsOf(email), ErrorsOf(password), ErrorsOf(password2)))
  }

  /** A username some user already has is reported on the username field, and the form is rejected. */
  lemma TakenUsernameIsRejected(users: map<UserId, User>, post: RegistrationPost, emailOk: string -> bool)
    requires FilledIn(post.username) && |Strip(Posted(post.username))| <= UsernameMaxLength
    requires UsernameTaken(users, Strip(Posted(post.username)))
    ensures
      var r := CleanRegistration(users, post, emailOk);
      r.Rejected? && Taken in r.errors.username
  {
    UsernameTakenIsReported(users, post.username);
  }

  /** A valid address some user already has is reported on the e-mail field, and the form is rejected. */
  lemma TakenEmailIsRejected(users: map<UserId, User>, post: RegistrationPost, emailOk: string -> bool)
    requires FilledIn(post.email) && emailOk(Strip(Posted(post.email)))
    requires EmailTaken(users, Strip(Posted(post.email)))
    ensures
      var r := CleanRegistration(users, post, emailOk);
      r.Rejected? && Taken in r.errors.email
  {
    assert Taken in ErrorsOf(CleanNewEmail(users, post.email, emailOk));
  }

  /** Two filled-in, different passwords put the mismatch error on `password2`, and only then is it there. */
  lemma MismatchIffPasswordsDiffer(users: map<UserId, User>, post: RegistrationPost, emailOk: string -> bool)
    ensures
      var r := CleanRegistration(users, post, emailOk);
      PasswordsDiffer(post) <==> r.Rejected? && Mismatch in r.errors.password2
  {
    var r := CleanRegistration(users, post, emailOk);
    assert PasswordsDiffer(post) <==> Mismatch in ErrorsOf(CleanPassword2(post));
    if PasswordsDiffer(post) {
      assert CleanPassword2(post).Err?;
    }
  }

  /** Equal passwords never draw the mismatch error, and neither does a missing one. */
  lemma NoMismatchWithoutTwoDifferentPasswords(users: map<UserId, User>, post: RegistrationPost, emailOk: string -> bool)
    requires IsBlank(Posted(post.password)) || IsBlank(Posted(post.password2))
      || Strip(Posted(post.password)) == Strip(Posted(post.password2))
    ensures
      var r := CleanRegistration(users, post, emailOk);
      r.Rejected? ==> Mismatch !in r.errors.password2
  {
  }

  // ---------------------------------------------------------------------------
  // E-mail normalisation (`BaseUserManager.normalize_email`)

  /** The position of the last '@' in `s`, if it has one. */
  function LastAt(s: string): (r: Option<nat>)
    ensures r.None? <==> '@' !in s
    ensures r.Some? ==> r.value < |s| && s[r.value] == '@' && forall j :: r.value < j < |s| ==> s[j] != '@'
    decreases |s|
  {
    if s == [] then None
    else if s[|s| - 1] == '@' then Some(|s| - 1)
    else
      assert s == s[..|s| - 1] + [s[|s| - 1]];
      LastAt(s[..|s| - 1])
  }

  /**
    `normalize_email`: the stripped address is split at its last '@' and the
    domain part is lower-cased; an address without '@' is kept as it was.
   */
  function NormalizeEmail(email: string): (r: string)
    ensures '@' !in Strip(email) ==> r == email
    ensures '@' in Strip(email) ==>
      && |r| == |Strip(email)|
      && LastAt(r) == LastAt(Strip(email))
      && Lower(r) == Lower(Strip(email))
    ensures '@' in Strip(email) ==>
      var i := LastAt(r).value;
      && r[..i] == Strip(email)[..i]
      && forall j :: i < j < |r| ==> !('A' <= r[j] <= 'Z')
  {
    var t := Strip(email);
    match LastAt(t)
    case None => email
    case Some(i) =>
      SplitAddressShape(t, i);
      t[..i] + "@" + Lower(t[i + 1..])
  }

  /**
    Lower-casing the part after the last '@' keeps the length, that '@' and
    everything before it, and leaves no capital letter after it.
   */
  lemma SplitAddressShape(t: string, i: nat)
    requires i < |t| && t[i] == '@' && forall j :: i < j < |t| ==> t[j] != '@'
    ensures
      var r := t[..i] + "@" + Lower(t[i + 1..]);
      && |r| == |t| && LastAt(r) == Some(i) && Lower(r) == Lower(t)
      && r[..i] == t[..i]
      && forall j :: i < j < |r| ==> !('A' <= r[j] <= 'Z')
  {
    var r := t[..i] + "@" + Lower(t[i + 1..]);
    LowerMatchesNormalized(t, i);
    forall j | i < j < |r|
      ensures r[j] == AsciiLower(t[j])
    {
      assert r[j] == Lower(t[i + 1..])[j - i - 1];
    }
    LastAtIsLast(r, i);
    assert r[..i] == t[..i];
  }

  /** Normalising twice is the same as normalising once: a stored address is already normal. */
  lemma NormalizeEmailIdempotent(email: string)
    ensures NormalizeEmail(NormalizeEmail(email)) == NormalizeEmail(email)
  {
    var t := Strip(email);
    if '@' in t {
      var i := LastAt(t).value;
      NormalizeEmailSplits(email, i);
      SplitAddressIsNormal(t, i);
    } else {
      assert NormalizeEmail(email) == email;
    }
  }

  /** An address with an '@' normalises to its stripped form split at the last '@', and that form has no white space at its ends. */
  lemma NormalizeEmailSplits(email: string, i: nat)
    requires LastAt(Strip(email)) == Some(i)
    ensures var t := Strip(email);
      && i < |t| && t[i] == '@' && (forall j :: i < j < |t| ==> t[j] != '@')
      && !IsSpace(t[0]) && !IsSpace(t[|t| - 1])
      && NormalizeEmail(email) == t[..i] + "@" + Lower(t[i + 1..])
  {
    var _ := StripWindow(email);
  }

  /** An address with no white space at its ends, split at its last '@', normalises to a fixed point. */
  lemma SplitAddressIsNormal(t: string, i: nat)
    requires i < |t| && t[i] == '@' && forall j :: i < j < |t| ==> t[j] != '@'
    requires !IsSpace(t[0]) && !IsSpace(t[|t| - 1])
    ensures var r := t[..i] + "@" + Lower(t[i + 1..]); NormalizeEmail(r) == r
  {
    var d := t[i + 1..];
    var r := t[..i] + "@" + Lower(d);
    assert !IsSpace(r[0]) by {
      if i > 0 { assert r[0] == t[0]; }
    }
    assert !IsSpace(r[|r| - 1]) by {
      if i + 1 < |t| { assert r[|r| - 1] == AsciiLower(t[|t| - 1]); }
    }
    StripTrimmed(r);
    forall j | i < j < |r|
      ensures r[j] != '@'
    {
      assert r[j] == AsciiLower(t[j]);
    }
    LastAtIsLast(r, i);
    assert r[..i] == t[..i] && r[i + 1..] == Lower(d);
    assert Lower(Lower(d)) == Lower(d);
  }

  /** Lower-casing the domain part does not change the address once the whole of it is lower-cased. */
  lemma LowerMatchesNormalized(t: string, i: nat)
    requires i < |t| && t[i] == '@'
    ensures Lower(t[..i] + "@" + Lower(t[i + 1..])) == Lower(t)
  {
    var r := t[..i] + "@" + Lower(t[i + 1..]);
    forall j | 0 <= j < |t|
      ensures Lower(r)[j] == Lower(t)[j]
    {
      if j < i {
        assert r[j] == t[j];
      } else if j == i {
        assert r[j] == t[j];
      } else {
        assert r[j] == Lower(t[i + 1..])[j - i - 1] == AsciiLower(t[j]);
      }
    }
  }

  /** A position holding '@' with no '@' after it is the one `LastAt` finds. */
  lemma LastAtIsLast(s: string, i: nat)
    requires i < |s| && s[i] == '@' && forall j :: i < j < |s| ==> s[j] != '@'
    ensures LastAt(s) == Some(i)
  {
  }

  // ---------------------------------------------------------------------------
  // Users and their profiles

  /** The profile the `create_user_profile` hook creates: blank fields, no image. */
  const BlankProfile: Profile := Profile("", "", NoFile)

  datatype Created = Created(store: Store, id: UserId)

  /**
    `create_user` saving a new `User` row under the next id, with the
    e-mail normalised; the `post_save` hook sees `created` and creates its
    profile (the second hook then re-saves that profile unchanged).
   */
  function CreateUser(st: Store, username: string, email: string): (r: Created)
    ensures r.id == st.nextUserId && r.store.nextUserId == r.id + 1
    ensures r.id in r.store.users && r.store.users[r.id] == User(username, NormalizeEmail(email), "", "")
    ensures r.id in r.store.profiles && r.store.profiles[r.id] == BlankProfile
    ensures forall v :: v in st.users ==> v in r.store.users
    ensures r.store.articles == st.articles && r.store.comments == st.comments && r.store.likes == st.likes
  {
    var id := st.nextUserId;
    Created(st.(users := st.users[id := User(username, NormalizeEmail(email), "", "")],
                profiles := st.profiles[id := BlankProfile],
                nextUserId := id + 1), id)
  }

  /** In a valid store a new user brings exactly one new profile, and every old row is kept. */
  lemma CreateUserAddsOneProfile(st: Store, username: string, email: string)
    requires IdsBelowCounters(st) && ProfilesWellFormed(st)
    ensures
      var r := CreateUser(st, username, email);
      && r.id !in st.users && r.id !in st.profiles
      && r.store.users.Keys == st.users.Keys + {r.id}
      && r.store.profiles.Keys == st.profiles.Keys + {r.id}
      && |r.store.profiles| == |st.profiles| + 1
      && (forall v :: v in st.profiles ==> r.store.profiles[v] == st.profiles[v])
      && (forall v :: v in st.users ==> r.store.users[v] == st.users[v])
  {
    var r := CreateUser(st, username, email);
    assert r.id !in st.profiles;
    assert r.store.profiles.Keys == st.profiles.Keys + {r.id};
  }

  /** A new user whose username is free keeps every schema constraint. */
  lemma CreateUserKeepsValid(st: Store, username: string, email: string)
    requires Valid(st) && !UsernameTaken(st.users, username)
    ensures Valid(CreateUser(st, username, email).store)
  {
    var r := CreateUser(st, username, email);
    assert r.id !in st.users;
    NewUsernameKeepsUnique(st.users, r.id, r.store.users[r.id]);
    assert r.store.users == st.users[r.id := r.store.users[r.id]];
    NewProfileKeepsProfiles(st, r.store);
    AccountsChangeKeepsValid(st, r.store);
  }

  /** Adding a user under a fresh id with a free username keeps usernames unique. */
  lemma NewUsernameKeepsUnique(users: map<UserId, User>, id: UserId, u: User)
    requires UsersWellFormed(users) && id !in users && !UsernameTaken(users, u.username)
    ensures UsersWellFormed(users[id := u])
  {
    var users' := users[id := u];
    forall v, w | v in users' && w in users' && v != w
      ensures users'[v].username != users'[w].username
    {
      if v == id {
        assert users'[w] == users[w];
      } else if w == id {
        assert users'[v] == users[v];
      }
    }
  }

  /** A profile row with limits met, keyed by the only new user, keeps the profile constraints. */
  lemma NewProfileKeepsProfiles(st: Store, st': Store)
    requires ProfilesWellFormed(st)
    requires st'.users.Keys == st.users.Keys + {st.nextUserId}
    requires st'.profiles == st.profiles[st.nextUserId := BlankProfile]
    ensures ProfilesWellFormed(st')
  {
  }

  /**
    Saving an existing user: the `post_save` hook sees `created` false and
    creates nothing, and the second hook re-saves `user.profile`, which fails
    when the user has no profile row.
   */
  function ResaveUser(st: Store, id: UserId, u: User): (r: Option<Store>)
    requires id in st.users
    ensures r.Some? <==> id in st.profiles
    ensures r.Some? ==> r.value.profiles == st.profiles && r.value.users.Keys == st.users.Keys
    ensures r.Some? ==> r.value.users[id] == u && forall v :: v in st.users && v != id ==> r.value.users[v] == st.users[v]
    ensures r.Some? ==> r.value == st.(users := r.value.users)
  {
    if id in st.profiles then Some(st.(users := st.users[id := u])) else None
  }

  /** In a valid store re-saving a user succeeds and creates no further profile. */
  lemma ResaveCreatesNoProfile(st: Store, id: UserId, u: User)
    requires Valid(st) && id in st.users
    ensures ResaveUser(st, id, u).Some?
    ensures ResaveUser(st, id, u).value.profiles.Keys == st.users.Keys
  {
  }

  /** A profile per user and no other: each user has one, and deleting a user leaves no orphan. */
  lemma OneProfilePerUser(st: Store, id: UserId)
    requires ProfilesWellFormed(st)
    ensures id in st.users <==> id in st.profiles
    ensures |st.profiles| == |st.users|
  {
    assert st.profiles.Keys == st.users.Keys;
  }

  // ---------------------------------------------------------------------------
  // user_register

  /**
    `user_register`: a signed-in requester is sent home; a valid POST creates
    the account and redirects to the login page; anything else renders the
    form again and creates nothing.
   */
  function Register(st: Store, who: Requester, req: Request<RegistrationPost>, emailOk: string -> bool): (out: Step)
    ensures KnownUser(st, who) ==> out == Step(st, Redirect(HomePage))
    ensures !KnownUser(st, who) && req.NonPost? ==> out == Step(st, Render(RegisterPage))
    ensures !KnownUser(st, who) && req.Post? && !RegistrationAcceptable(st.users, req.data, emailOk) ==>
      out == Step(st, Render(RegisterPage))
    ensures out.response == Redirect(LoginPage) <==>
      !KnownUser(st, who) && req.Post? && RegistrationAcceptable(st.users, req.data, emailOk)
    ensures out.response != Redirect(LoginPage) ==> out.store == st
  {
    if KnownUser(st, who) then Step(st, Redirect(HomePage))
    else if req.NonPost? then Step(st, Render(RegisterPage))
    else match CleanRegistration(st.users, req.data, emailOk)
      case Rejected(_) => Step(st, Render(RegisterPage))
      case Accepted(account) => Step(CreateUser(st, account.username, account.email).store, Redirect(LoginPage))
  }

  /**
    A successful registration adds exactly one user, carrying the stripped
    username and e-mail, whose name no earlier user had, and one blank
    profile for it; articles, comments and likes are untouched.
   */
  lemma RegisterAddsOneUser(st: Store, post: RegistrationPost, emailOk: string -> bool)
    requires Valid(st) && RegistrationAcceptable(st.users, post, emailOk)
    ensures
      var out := Register(st, Anonymous, Post(post), emailOk);
      var id := st.nextUserId;
      && id !in st.users
      && out.store.users.Keys == st.users.Keys + {id}
      && |out.store.users| == |st.users| + 1
      && out.store.users[id].username == Strip(Posted(post.username))
      && out.store.users[id].email == NormalizeEmail(Strip(Posted(post.email)))
      && |out.store.users[id].username| <= UsernameMaxLength
      && !UsernameTaken(st.users, out.store.users[id].username)
      && out.store.profiles[id] == BlankProfile
      && out.store.articles == st.articles && out.store.comments == st.comments && out.store.likes == st.likes
  {
    var account := CleanRegistration(st.users, post, emailOk).account;
    CreateUserAddsOneProfile(st, account.username, account.email);
  }

  lemma RegisterKeepsValid(st: Store, who: Requester, req: Request<RegistrationPost>, emailOk: string -> bool)
    requires Valid(st)
    ensures Valid(Register(st, who, req, emailOk).store)
  {
    if !KnownUser(st, who) && req.Post? && RegistrationAcceptable(st.users, req.data, emailOk) {
      var account := CleanRegistration(st.users, req.data, emailOk).account;
      assert Register(st, who, req, emailOk).store == CreateUser(st, account.username, account.email).store;
      CreateUserKeepsValid(st, account.username, account.email);
    }
  }

  // ---------------------------------------------------------------------------
  // user_edit

  /** `first_name` and `last_name` of the framework's `User`. */
  const NameMaxLength: nat := 150
  /** `email` of the framework's `User`. */
  const EmailMaxLength: nat := 254

  /** The edit page's POST data; `image` is the name of an uploaded file, if any. */
  datatype EditPost = EditPost(
    firstName: Option<string>,
    lastName: Option<string>,
    email: Option<string>,
    fathersName: Option<string>,
    mliCode: Option<string>,
    image: Option<string>)

  /**
    `UserEditForm`: optional names and e-mail. `is_valid()` also runs the
    model's `clean`, which normalises the e-mail on the instance. The
    instance's new values, or `None` when the form is invalid.
   */
  function CleanUserEdit(post: EditPost, emailOk: string -> bool): (r: Option<User>)
    ensures r.Some? <==>
      && |Strip(Posted(post.firstName))| <= NameMaxLength && !HasNull(Posted(post.firstName))
      && |Strip(Posted(post.lastName))| <= NameMaxLength && !HasNull(Posted(post.lastName))
      && (IsBlank(Posted(post.email)) ||
          (emailOk(Strip(Posted(post.email))) && |Strip(Posted(post.email))| <= EmailMaxLength && !HasNull(Posted(post.email))))
    ensures r.Some? ==>
      r.value.firstName == Strip(Posted(post.firstName)) && r.value.lastName == Strip(Posted(post.lastName))
      && r.value.email == NormalizeEmail(Strip(Posted(post.email)))
  {
    var first := CleanText(post.firstName, false, Some(NameMaxLength));
    var last := CleanText(post.lastName, false, Some(NameMaxLength));
    var email := CleanEmail(post.email, false, Some(EmailMaxLength), emailOk);
    if first.Ok? && last.Ok? && email.Ok? then Some(User("", NormalizeEmail(email.value), first.value, last.value)) else None
  }

  /**
    `ProfileEditForm` on the current profile: optional, length-limited
    father's name and national code; with no upload the image is kept, and
    an upload must be a readable image.
   */
  function CleanProfileEdit(post: EditPost, current: Profile, imageOk: string -> bool): (r: Option<Profile>)
    ensures r.Some? <==>
      && |Strip(Posted(post.fathersName))| <= FathersNameMaxLength && !HasNull(Posted(post.fathersName))
      && |Strip(Posted(post.mliCode))| <= MliCodeMaxLength && !HasNull(Posted(post.mliCode))
      && (post.image.Some? ==> imageOk(post.image.value))
    ensures r.Some? ==>
      && r.value.fathersName == Strip(Posted(post.fathersName))
      && r.value.mliCode == Strip(Posted(post.mliCode))
      && r.value.image == (if post.image.Some? then File(post.image.value) else current.image)
  {
    var father := CleanText(post.fathersName, false, Some(FathersNameMaxLength));
    var code := CleanText(post.mliCode, false, Some(MliCodeMaxLength));
    var imageValid := post.image.None? || imageOk(post.image.value);
    if father.Ok? && code.Ok? && imageValid then
      var image := if post.image.Some? then File(post.image.value) else current.image;
      Some(Profile(father.value, code.value, image))
    else None
  }

  /**
    `user_edit` (behind `login_required`): a GET renders the page; a POST
    saves the user and the profile only when both forms are valid, and
    otherwise renders the page again with nothing saved. A session whose
    user row is gone is anonymous to the authentication middleware; a user
    without a profile row makes `request.user.profile` raise.
   */
  function UserEdit(st: Store, who: Requester, req: Request<EditPost>, emailOk: string -> bool, imageOk: string -> bool): (out: Step)
    ensures !KnownUser(st, who) ==> out == Step(st, Redirect(LoginPage))
    ensures KnownUser(st, who) && who.id !in st.profiles ==> out == Step(st, ServerError)
    ensures KnownUser(st, who) && who.id in st.profiles && req.NonPost? ==> out == Step(st, Render(EditProfilePage))
    ensures KnownUser(st, who) && who.id in st.profiles && req.Post? ==>
      (out.response == Redirect(EditProfilePage) <==>
        CleanUserEdit(req.data, emailOk).Some? && CleanProfileEdit(req.data, st.profiles[who.id], imageOk).Some?)
    ensures KnownUser(st, who) && who.id in st.profiles && req.Post? ==>
      (CleanUserEdit(req.data, emailOk).None? || CleanProfileEdit(req.data, st.profiles[who.id], imageOk).None? ==>
        out == Step(st, Render(EditProfilePage)))
    ensures out.store != st ==>
      && who.Authenticated? && who.id in st.users && who.id in st.profiles && req.Post?
      && CleanUserEdit(req.data, emailOk).Some?
      && CleanProfileEdit(req.data, st.profiles[who.id], imageOk).Some?
      && out.response == Redirect(EditProfilePage)
    ensures out.response == Redirect(EditProfilePage) ==>
      && who.Authenticated? && who.id in st.users && who.id in st.profiles && req.Post?
      && var u := CleanUserEdit(req.data, emailOk);
      && var p := CleanProfileEdit(req.data, st.profiles[who.id], imageOk);
      && u.Some? && p.Some?
      && out.store.users == st.users[who.id := st.users[who.id].(firstName := u.value.firstName,
                                                                  lastName := u.value.lastName,
                                                                  email := u.value.email)]
      && out.store.profiles == st.profiles[who.id := p.value]
      && out.store == st.(users := out.store.users, profiles := out.store.profiles)
  {
    if !KnownUser(st, who) then Step(st, Redirect(LoginPage))
    else if who.id !in st.profiles then Step(st, ServerError)
    else if req.NonPost? then Step(st, Render(EditProfilePage))
    else
      var u := CleanUserEdit(req.data, emailOk);
      var p := CleanProfileEdit(req.data, st.profiles[who.id], imageOk);
      if u.None? || p.None? then Step(st, Render(EditProfilePage))
      else
        var user := st.users[who.id].(firstName := u.value.firstName, lastName := u.value.lastName, email := u.value.email);
        match ResaveUser(st, who.id, user)
        case None => Step(st, ServerError)
        case Some(saved) => Step(saved.(profiles := saved.profiles[who.id := p.value]), Redirect(EditProfilePage))
  }

  /** Editing never changes a username, so usernames stay unique. */
  lemma UserEditKeepsUsername(st: Store, who: Requester, req: Request<EditPost>, emailOk: string -> bool, imageOk: string -> bool)
    ensures
      var out := UserEdit(st, who, req, emailOk, imageOk);
      out.store.users.Keys == st.users.Keys && forall v :: v in st.users ==> out.store.users[v].username == st.users[v].username
  {
  }

  /** Replacing a user's names and e-mail (not the username) and a within-limits profile keeps the constraints. */
  lemma EditKeepsValid(st: Store, id: UserId, user: User, profile: Profile)
    requires Valid(st) && id in st.users && user.username == st.users[id].username
    requires |profile.fathersName| <= FathersNameMaxLength && |profile.mliCode| <= MliCodeMaxLength
    ensures Valid(st.(users := st.users[id := user], profiles := st.profiles[id := profile]))
  {
    var st' := st.(users := st.users[id := user], profiles := st.profiles[id := profile]);
    SameUsernameKeepsUnique(st.users, id, user);
    assert st'.users.Keys == st.users.Keys && st'.profiles.Keys == st.profiles.Keys;
    forall u | u in st'.profiles
      ensures |st'.profiles[u].fathersName| <= FathersNameMaxLength && |st'.profiles[u].mliCode| <= MliCodeMaxLength
    {
      if u != id {
        assert st'.profiles[u] == st.profiles[u];
      }
    }
    AccountsChangeKeepsValid(st, st');
  }

  /** Replacing a user row by one with the same username keeps usernames unique. */
  lemma SameUsernameKeepsUnique(users: map<UserId, User>, id: UserId, u: User)
    requires UsersWellFormed(users) && id in users && u.username == users[id].username
    ensures UsersWellFormed(users[id := u])
  {
    var users' := users[id := u];
    forall v, w | v in users' && w in users' && v != w
      ensures users'[v].username != users'[w].username
    {
      assert users'[v].username == users[v].username;
      assert users'[w].username == users[w].username;
    }
  }

  /** The edit forms enforce the profile columns' lengths, so an edit keeps every schema constraint. */
  lemma UserEditKeepsValid(st: Store, who: Requester, req: Request<EditPost>, emailOk: string -> bool, imageOk: string -> bool)
    requires Valid(st)
    ensures Valid(UserEdit(st, who, req, emailOk, imageOk).store)
  {
    var out := UserEdit(st, who, req, emailOk, imageOk);
    if out.store != st {
      var u := CleanUserEdit(req.data, emailOk).value;
      var p := CleanProfileEdit(req.data, st.profiles[who.id], imageOk).value;
      var user := st.users[who.id].(firstName := u.firstName, lastName := u.lastName, email := u.email);
      EditKeepsValid(st, who.id, user, p);
      assert out.store == st.(users := st.users[who.id := user], profiles := st.profiles[who.id := p]);
    }
  }
}

=== FILE: articles.dfy ===
/**
  Saving a new `Article` (blog/models.py): the slug is filled in from the
  title when left empty, the status defaults to draft, and the database's
  `unique=True` on title and slug and its foreign keys reject a bad row.
  `slugify` is the framework's function and is taken as a parameter.
 */
module Articles {
  import opened Base
  import opened Store

  /** `Article.save`: an empty slug is replaced by the slugified title; any other slug is kept. */
  function DefaultSlug(slug: Slug, title: string, slugify: string -> Slug): (r: Slug)
    ensures slug != "" ==> r == slug
    ensures slug == "" ==> r == slugify(title)
  {
    if slug == "" then slugify(title) else slug
  }

  /**
    Once a save has produced a non-empty slug, no later save changes it,
    whatever the title has become meanwhile.
   */
  lemma SlugStableAcrossSaves(slug: Slug, title: string, later: string, slugify: string -> Slug)
    requires DefaultSlug(slug, title, slugify) != ""
    ensures DefaultSlug(DefaultSlug(slug, title, slugify), later, slugify) == DefaultSlug(slug, title, slugify)
  {
  }

  /** What the admin form hands to `save()` for a new article. */
  datatype ArticleForm = ArticleForm(
    title: string,
    slug: Slug,
    body: string,
    image: ImageField,
    status: Option<Status>,
    author: UserId,
    categories: set<CategoryId>)

  datatype SaveOutcome = Saved(store: Store, slug: Slug) | IntegrityError

  /** Some stored article, draft or published, already has this title. */
  predicate TitleTaken(articles: map<Slug, Article>, title: string) {
    exists s :: s in articles && articles[s].title == title
  }

  /**
    Inserting a new article: the slug is defaulted first, then the row is
    rejected when its slug or title is already used or a foreign key dangles.
   */
  function SaveNewArticle(st: Store, form: ArticleForm, slugify: string -> Slug, now: nat): (r: SaveOutcome)
    ensures r.Saved? ==>
      && r.slug == DefaultSlug(form.slug, form.title, slugify)
      && r.slug !in st.articles
      && r.slug in r.store.articles
      && r.store.articles == st.articles[r.slug := r.store.articles[r.slug]]
      && r.store == st.(articles := r.store.articles)
    ensures r.Saved? ==> !TitleTaken(st.articles, form.title)
    ensures r.Saved? ==> r.slug in r.store.articles && r.store.articles[r.slug].status == form.status.GetOr(DefaultStatus)
    ensures r.Saved? ==>
      var a := r.store.articles[r.slug];
      && a.title == form.title && a.body == form.body && a.image == form.image
      && a.author == form.author && a.categories == form.categories
      && a.created == now && a.updated == now
    ensures r.IntegrityError? <==>
      || DefaultSlug(form.slug, form.title, slugify) in st.articles
      || TitleTaken(st.articles, form.title)
      || form.author !in st.users
      || !(form.categories <= st.categories.Keys)
  {
    var slug := DefaultSlug(form.slug, form.title, slugify);
    if slug in st.articles || TitleTaken(st.articles, form.title)
      || form.author !in st.users || !(form.categories <= st.categories.Keys)
    then IntegrityError
    else
      var a := Article(form.title, form.body, form.image, form.status.GetOr(DefaultStatus),
                       form.author, form.categories, now, now);
      Saved(st.(articles := st.articles[slug := a]), slug)
  }

  /** An article saved without a status is a draft. */
  lemma NewArticleIsDraft(st: Store, form: ArticleForm, slugify: string -> Slug, now: nat)
    requires form.status.None?
    requires SaveNewArticle(st, form, slugify, now).Saved?
    ensures
      var r := SaveNewArticle(st, form, slugify, now);
      r.store.articles[r.slug].status == Draft
  {
  }

  /** Saving keeps every constraint: titles and slugs stay unique across drafts and published articles alike. */
  lemma SaveNewArticleKeepsValid(st: Store, form: ArticleForm, slugify: string -> Slug, now: nat)
    requires Valid(st)
    ensures
      var r := SaveNewArticle(st, form, slugify, now);
      r.Saved? ==> Valid(r.store)
  {
    var r := SaveNewArticle(st, form, slugify, now);
    if r.Saved? {
      var a := r.store.articles[r.slug];
      assert r.store == st.(articles := st.articles[r.slug := a]);
      InsertArticleKeepsValid(st, r.slug, a);
    }
  }

  /** A row with a fresh slug, a free title and existing author and categories keeps every constraint. */
  lemma InsertArticleKeepsValid(st: Store, slug: Slug, a: Article)
    requires Valid(st) && slug !in st.articles && !TitleTaken(st.articles, a.title)
    requires a.author in st.users && a.categories <= st.categories.Keys
    ensures Valid(st.(articles := st.articles[slug := a]))
  {
    var st' := st.(articles := st.articles[slug := a]);
    NewTitleKeepsUnique(st.articles, slug, a);
    forall s | s in st'.articles
      ensures st'.articles[s].author in st'.users && st'.articles[s].categories <= st'.categories.Keys
    {
      if s != slug {
        assert st'.articles[s] == st.articles[s];
      }
    }
    ArticlesChangeKeepsValid(st, st');
  }

  /** Adding an article under a fresh slug with a title no article has keeps titles unique. */
  lemma NewTitleKeepsUnique(articles: map<Slug, Article>, slug: Slug, a: Article)
    requires slug !in articles && !TitleTaken(articles, a.title)
    requires forall s, t :: s in articles && t in articles && s != t ==> articles[s].title != articles[t].title
    ensures var articles' := articles[slug := a];
      forall s, t :: s in articles' && t in articles' && s != t ==> articles'[s].title != articles'[t].title
  {
    var articles' := articles[slug := a];
    forall s, t | s in articles' && t in articles' && s != t
      ensures articles'[s].title != articles'[t].title
    {
      if s == slug {
        assert articles'[t] == articles[t];
      } else if t == slug {
        assert articles'[s] == articles[s];
      }
    }
  }
}

=== FILE: base.dfy ===
/** Small datatypes shared by every module of the blog model. */
module Base {

  /** A value that may be absent: a nullable column, a missing form field. */
  datatype Option<+T> = None | Some(value: T) {

    /** Returns the value, or `default` when absent. */
    function GetOr(default: T): T {
      match this
      case Some(v) => v
      case None => default
    }
  }

  function Min(a: nat, b: nat): nat {
    if a <= b then a else b
  }
}

=== FILE: cascade.dfy ===
/**
  Cascading deletion (`on_delete=models.CASCADE`) in blog/models.py and
  accounts/models.py. Deleting an article removes its comments and likes;
  deleting a comment removes its replies, and their replies in turn;
  deleting a user removes their profile, articles, comments and likes, and
  everything those deletions cascade to. Replies are followed by id alone,
  so a thread may reach comments of other articles.
 */
module Cascade {
  import opened Base
  import opened Store

  /** The comments that reply directly to a comment in `s`. */
  function RepliesTo(comments: map<CommentId, Comment>, s: set<CommentId>): set<CommentId> {
    set id | id in comments && comments[id].parent.Some? && comments[id].parent.value in s
  }

  /** Every reply to a comment of `s` is itself in `s`. */
  ghost predicate ClosedUnderReplies(comments: map<CommentId, Comment>, s: set<CommentId>) {
    forall id :: id in comments && comments[id].parent.Some? && comments[id].parent.value in s ==> id in s
  }

  /**
    The comments in `seed` with all their replies, transitively: the least
    set that holds `seed` and every reply to its members.
   */
  function Thread(comments: map<CommentId, Comment>, seed: set<CommentId>): (r: set<CommentId>)
    requires seed <= comments.Keys
    ensures seed <= r <= comments.Keys
    ensures ClosedUnderReplies(comments, r)
    ensures forall t :: seed <= t && ClosedUnderReplies(comments, t) ==> r <= t
    decreases |comments.Keys - seed|
  {
    var replies := RepliesTo(comments, seed);
    if replies <= seed then seed
    else
      var grown := seed + replies;
      var extra := grown - seed;
      var x :| x in replies && x !in seed;
      assert x in extra;
      assert comments.Keys - seed == (comments.Keys - grown) + extra;
      assert (comments.Keys - grown) * extra == {};
      Thread(comments, grown)
  }

  /** The comments of `comments` outside `gone`, unchanged. */
  function Without(comments: map<CommentId, Comment>, gone: set<CommentId>): map<CommentId, Comment> {
    map id | id in comments && id !in gone :: comments[id]
  }

  /** Removing a reply-closed set of comments leaves no reply whose parent is gone. */
  lemma WithoutClosedKeepsParents(st: Store, gone: set<CommentId>)
    requires CommentsWellFormed(st) && ClosedUnderReplies(st.comments, gone)
    ensures forall c :: c in Without(st.comments, gone) && st.comments[c].parent.Some? ==>
      st.comments[c].parent.value in Without(st.comments, gone)
  {
  }

  // ---------------------------------------------------------------------------
  // Deleting a comment

  /** `comment.delete()`: the comment and its whole reply thread disappear. */
  function DeleteComment(st: Store, id: CommentId): (st': Store)
    ensures id !in st'.comments
    ensures st'.comments.Keys <= st.comments.Keys
    ensures forall c :: c in st'.comments ==> st'.comments[c] == st.comments[c]
    ensures id in st.comments ==> forall c :: c in st.comments && st.comments[c].parent == Some(id) ==> c !in st'.comments
    ensures st' == st.(comments := st'.comments)
  {
    var seed := if id in st.comments then {id} else {};
    st.(comments := Without(st.comments, Thread(st.comments, seed)))
  }

  /** Only the comment's thread goes: a comment survives exactly when it is outside the thread. */
  lemma DeleteCommentRemovesThread(st: Store, id: CommentId)
    requires id in st.comments
    ensures DeleteComment(st, id).comments.Keys == st.comments.Keys - Thread(st.comments, {id})
    ensures ClosedUnderReplies(st.comments, st.comments.Keys - DeleteComment(st, id).comments.Keys)
  {
  }

  lemma DeleteCommentKeepsValid(st: Store, id: CommentId)
    requires Valid(st)
    ensures Valid(DeleteComment(st, id))
  {
    var seed := if id in st.comments then {id} else {};
    WithoutClosedKeepsParents(st, Thread(st.comments, seed));
  }

  // ---------------------------------------------------------------------------
  // Deleting an article

  /** The comments whose `article` is `slug`. */
  function CommentsOn(comments: map<CommentId, Comment>, slug: Slug): set<CommentId> {
    set c | c in comments && comments[c].article == slug
  }

  /** `article.delete()`: the article, its likes, its comments and every reply to them. */
  function DeleteArticle(st: Store, slug: Slug): (st': Store)
    ensures slug !in st'.articles && st'.articles == st.articles - {slug}
    ensures forall c :: c in st'.comments ==> c in st.comments && st'.comments[c] == st.comments[c] && st'.comments[c].article != slug
    ensures forall l :: l in st'.likes ==> l in st.likes && st'.likes[l] == st.likes[l] && st'.likes[l].article != slug
    ensures forall l :: l in st.likes && st.likes[l].article != slug ==> l in st'.likes
    ensures st' == st.(articles := st'.articles, comments := st'.comments, likes := st'.likes)
  {
    var gone := Thread(st.comments, CommentsOn(st.comments, slug));
    st.(articles := st.articles - {slug},
        comments := Without(st.comments, gone),
        likes := map l | l in st.likes && st.likes[l].article != slug :: st.likes[l])
  }

  /** A comment survives the deletion of an article exactly when it is not in the thread of the article's comments. */
  lemma DeleteArticleRemovesThread(st: Store, slug: Slug)
    ensures DeleteArticle(st, slug).comments.Keys == st.comments.Keys - Thread(st.comments, CommentsOn(st.comments, slug))
  {
  }

  /** After deleting an article, every remaining comment still has its article, user and parent. */
  lemma DeleteArticleKeepsComments(st: Store, slug: Slug)
    requires CommentsWellFormed(st)
    ensures CommentsWellFormed(DeleteArticle(st, slug))
  {
    var gone := Thread(st.comments, CommentsOn(st.comments, slug));
    WithoutClosedKeepsParents(st, gone);
    var st' := DeleteArticle(st, slug);
    forall c | c in st'.comments
      ensures st'.comments[c].article in st'.articles
    {
      assert c !in CommentsOn(st.comments, slug);
    }
  }

  /** After deleting an article, every remaining like still has its user and article, and pairs stay unique. */
  lemma DeleteArticleKeepsLikes(st: Store, slug: Slug)
    requires LikesWellFormed(st)
    ensures LikesWellFormed(DeleteArticle(st, slug))
  {
    var st' := DeleteArticle(st, slug);
    forall l | l in st'.likes
      ensures st'.likes[l].user in st'.users && st'.likes[l].article in st'.articles
    {
      assert st'.likes[l] == st.likes[l];
    }
  }

  /** After deleting an article, the constraints on ids, users, articles and profiles still hold. */
  lemma DeleteArticleKeepsOthers(st: Store, slug: Slug)
    requires Valid(st)
    ensures
      var st' := DeleteArticle(st, slug);
      IdsBelowCounters(st') && UsersWellFormed(st'.users) && ArticlesWellFormed(st') && ProfilesWellFormed(st')
  {
    var st' := DeleteArticle(st, slug);
    assert st'.users == st.users && st'.profiles == st.profiles && st'.categories == st.categories;
  }

  lemma DeleteArticleKeepsValid(st: Store, slug: Slug)
    requires Valid(st)
    ensures Valid(DeleteArticle(st, slug))
  {
    DeleteArticleKeepsComments(st, slug);
    DeleteArticleKeepsLikes(st, slug);
    DeleteArticleKeepsOthers(st, slug);
  }

  // ---------------------------------------------------------------------------
  // Deleting a user

  /** The articles `u` wrote. */
  function ArticlesBy(articles: map<Slug, Article>, u: UserId): set<Slug> {
    set s | s in articles && articles[s].author == u
  }

  /** The comments `u` wrote or that sit on an article in `owned`. */
  function CommentsOfUser(comments: map<CommentId, Comment>, u: UserId, owned: set<Slug>): set<CommentId> {
    set c | c in comments && (comments[c].user == u || comments[c].article in owned)
  }

  /**
    `user.delete()`: the user, their profile, their articles, their comments
    and likes, the comments and likes on their articles, and every reply
    thread hanging off a removed comment.
   */
  function DeleteUser(st: Store, u: UserId): (st': Store)
    ensures u !in st'.users && u !in st'.profiles
    ensures forall s :: s in st'.articles ==> s in st.articles && st'.articles[s] == st.articles[s] && st'.articles[s].author != u
    ensures forall c :: c in st'.comments ==> c in st.comments && st'.comments[c] == st.comments[c] && st'.comments[c].user != u
    ensures forall l :: l in st'.likes ==> l in st.likes && st'.likes[l] == st.likes[l] && st'.likes[l].user != u
    ensures forall v :: v in st.users && v != u ==> v in st'.users && st'.users[v] == st.users[v]
    ensures st'.categories == st.categories
  {
    var owned := ArticlesBy(st.articles, u);
    var gone := Thread(st.comments, CommentsOfUser(st.comments, u, owned));
    st.(users := st.users - {u},
        profiles := st.profiles - {u},
        articles := map s | s in st.articles && s !in owned :: st.articles[s],
        comments := Without(st.comments, gone),
        likes := map l | l in st.likes && st.likes[l].user != u && st.likes[l].article !in owned :: st.likes[l])
  }

  /**
    Exactly those rows go: the articles `u` wrote, the thread of the comments
    by `u` or on those articles, the likes by `u` or on those articles, and
    `u`'s user and profile rows. Every other row survives.
   */
  lemma DeleteUserRemovesExactly(st: Store, u: UserId)
    ensures
      var st' := DeleteUser(st, u);
      var owned := ArticlesBy(st.articles, u);
      && st'.users == st.users - {u}
      && st'.profiles == st.profiles - {u}
      && st'.articles.Keys == st.articles.Keys - owned
      && st'.comments.Keys == st.comments.Keys - Thread(st.comments, CommentsOfUser(st.comments, u, owned))
      && (forall l :: l in st'.likes <==> l in st.likes && st.likes[l].user != u && st.likes[l].article !in owned)
  {
    var st' := DeleteUser(st, u);
    var owned := ArticlesBy(st.articles, u);
    var gone := Thread(st.comments, CommentsOfUser(st.comments, u, owned));
    assert st'.articles == map s | s in st.articles && s !in owned :: st.articles[s];
    assert st'.comments == Without(st.comments, gone);
  }

  lemma DeleteUserKeepsValid(st: Store, u: UserId)
    requires Valid(st)
    ensures Valid(DeleteUser(st, u))
  {
    var owned := ArticlesBy(st.articles, u);
    var seed := CommentsOfUser(st.comments, u, owned);
    var gone := Thread(st.comments, seed);
    WithoutClosedKeepsParents(st, gone);
    var st' := DeleteUser(st, u);
    forall c | c in st'.comments
      ensures st'.comments[c].article in st'.articles && st'.comments[c].user in st'.users
    {
      assert c !in seed;
    }
    forall s | s in st'.articles
      ensures st'.articles[s].author in st'.users
    {
      assert s !in owned;
    }
    assert ArticlesWellFormed(st');
    assert CommentsWellFormed(st');
    assert LikesWellFormed(st');
    assert ProfilesWellFormed(st');
  }
}

=== FILE: interaction.dfy ===
/**
  The interaction views of blog/views.py: `like_article` (a like toggle built
  on get-or-create-or-delete), `add_comment` (form validation, best-effort
  parent linking) and the like state `ArticleDetailView` shows.
  Both mutating views are `login_required`: an anonymous request is sent to
  the login page before the article is even looked up.
 */
module Interaction {
  import opened Base
  import opened Text
  import opened Store
  import opened Web

  // ---------------------------------------------------------------------------
  // like_article

  /** The like row `l` belongs to the pair (u, slug). */
  predicate IsPair(l: Like, u: UserId, slug: Slug) {
    l.user == u && l.article == slug
  }

  /** Every like row of another pair is in `after` exactly when it was in `before`, unchanged. */
  ghost predicate OtherLikesKept(before: map<LikeId, Like>, after: map<LikeId, Like>, u: UserId, slug: Slug) {
    && (forall id :: id in before && !IsPair(before[id], u, slug) ==> id in after && after[id] == before[id])
    && (forall id :: id in after && !IsPair(after[id], u, slug) ==> id in before)
  }

  /**
    `like_article`: `get_or_create` the row for (user, article); when it
    already existed, delete it. Redirects to the article either way.
   */
  function ToggleLike(st: Store, who: Requester, slug: Slug, now: nat): (out: Step)
    ensures !KnownUser(st, who) ==> out == Step(st, Redirect(LoginPage))
    ensures KnownUser(st, who) && !IsPublished(st, slug) ==> out == Step(st, NotFound)
    ensures KnownUser(st, who) && IsPublished(st, slug) ==>
      && out.response == Redirect(ArticlePage(slug))
      && (LikedBy(out.store.likes, who.id, slug) <==> !LikedBy(st.likes, who.id, slug))
      && out.store == st.(likes := out.store.likes, nextLikeId := out.store.nextLikeId)
    ensures IdsBelowCounters(st) ==> IdsBelowCounters(out.store)
  {
    if !KnownUser(st, who) then Step(st, Redirect(LoginPage))
    else if !IsPublished(st, slug) then Step(st, NotFound)
    else
      var u := who.id;
      if LikedBy(st.likes, u, slug) then
        var kept := map id | id in st.likes && !IsPair(st.likes[id], u, slug) :: st.likes[id];
        Step(st.(likes := kept), Redirect(ArticlePage(slug)))
      else
        var likes := st.likes[st.nextLikeId := Like(u, slug, now)];
        assert likes[st.nextLikeId].user == u && likes[st.nextLikeId].article == slug;
        Step(st.(likes := likes, nextLikeId := st.nextLikeId + 1), Redirect(ArticlePage(slug)))
  }

  /** With fresh like ids, a toggle keeps every like row of every other pair, and adds none. */
  lemma ToggleKeepsOtherLikes(st: Store, u: UserId, slug: Slug, now: nat)
    requires IdsBelowCounters(st) && u in st.users && IsPublished(st, slug)
    ensures OtherLikesKept(st.likes, ToggleLike(st, Authenticated(u), slug, now).store.likes, u, slug)
  {
  }

  /** A pair is liked exactly when it is among the recorded pairs. */
  lemma LikedByIffPair(likes: map<LikeId, Like>, u: UserId, slug: Slug)
    ensures LikedBy(likes, u, slug) <==> (u, slug) in LikePairs(likes)
  {
    if (u, slug) in LikePairs(likes) {
      var id :| id in likes && (likes[id].user, likes[id].article) == (u, slug);
      assert IsPair(likes[id], u, slug);
    }
  }

  /** A successful toggle adds the pair when it was absent and removes it when present, and touches no other pair. */
  lemma ToggleFlipsPair(st: Store, u: UserId, slug: Slug, now: nat)
    requires IdsBelowCounters(st) && u in st.users && IsPublished(st, slug)
    ensures LikePairs(ToggleLike(st, Authenticated(u), slug, now).store.likes) ==
      if (u, slug) in LikePairs(st.likes) then LikePairs(st.likes) - {(u, slug)} else LikePairs(st.likes) + {(u, slug)}
  {
    var after := ToggleLike(st, Authenticated(u), slug, now).store.likes;
    var p := (u, slug);
    LikedByIffPair(st.likes, u, slug);
    LikedByIffPair(after, u, slug);
    ToggleKeepsOtherLikes(st, u, slug, now);
    forall q | q != p
      ensures q in LikePairs(after) <==> q in LikePairs(st.likes)
    {
      if q in LikePairs(after) {
        var id :| id in after && (after[id].user, after[id].article) == q;
        assert !IsPair(after[id], u, slug);
      }
      if q in LikePairs(st.likes) {
        var id :| id in st.likes && (st.likes[id].user, st.likes[id].article) == q;
        assert !IsPair(st.likes[id], u, slug);
      }
    }
  }

  /** Toggling twice by the same user on the same article restores the set of liked pairs. */
  lemma ToggleTwiceRestoresPairs(st: Store, u: UserId, slug: Slug, t1: nat, t2: nat)
    requires IdsBelowCounters(st) && u in st.users && IsPublished(st, slug)
    ensures
      var once := ToggleLike(st, Authenticated(u), slug, t1).store;
      LikePairs(ToggleLike(once, Authenticated(u), slug, t2).store.likes) == LikePairs(st.likes)
  {
    var once := ToggleLike(st, Authenticated(u), slug, t1).store;
    ToggleFlipsPair(st, u, slug, t1);
    ToggleFlipsPair(once, u, slug, t2);
  }

  /** A toggle leaves exactly one row for the pair when there was none, and none when there was one. */
  lemma ToggleLeavesOneOrNone(st: Store, u: UserId, slug: Slug, now: nat)
    requires LikesWellFormed(st) && IdsBelowCounters(st) && u in st.users && IsPublished(st, slug)
    ensures
      var after := ToggleLike(st, Authenticated(u), slug, now).store.likes;
      |LikesOf(after, u, slug)| == if LikedBy(st.likes, u, slug) then 0 else 1
  {
    var after := ToggleLike(st, Authenticated(u), slug, now).store.likes;
    if LikedBy(st.likes, u, slug) {
      assert LikesOf(after, u, slug) == {};
    } else {
      assert LikesOf(after, u, slug) == {st.nextLikeId};
    }
  }

  /** The like count of the article moves by exactly one. */
  lemma ToggleMovesCountByOne(st: Store, u: UserId, slug: Slug, now: nat)
    requires LikesWellFormed(st) && IdsBelowCounters(st) && u in st.users && IsPublished(st, slug)
    ensures
      var after := ToggleLike(st, Authenticated(u), slug, now).store.likes;
      |LikesOn(after, slug)| == if LikedBy(st.likes, u, slug) then |LikesOn(st.likes, slug)| - 1 else |LikesOn(st.likes, slug)| + 1
  {
    var after := ToggleLike(st, Authenticated(u), slug, now).store.likes;
    if LikedBy(st.likes, u, slug) {
      AtMostOneLikePerPair(st, u, slug);
      assert after == map id | id in st.likes && !IsPair(st.likes[id], u, slug) :: st.likes[id];
      DropPairCount(st.likes, u, slug);
    } else {
      assert after == st.likes[st.nextLikeId := Like(u, slug, now)];
      AddLikeCount(st.likes, st.nextLikeId, Like(u, slug, now));
    }
  }

  /** Dropping the single row of a pair takes one like off the article. */
  lemma DropPairCount(likes: map<LikeId, Like>, u: UserId, slug: Slug)
    requires |LikesOf(likes, u, slug)| == 1
    ensures
      var kept := map id | id in likes && !IsPair(likes[id], u, slug) :: likes[id];
      |LikesOn(kept, slug)| == |LikesOn(likes, slug)| - 1
  {
    var kept := map id | id in likes && !IsPair(likes[id], u, slug) :: likes[id];
    var mine := LikesOf(likes, u, slug);
    assert mine <= LikesOn(likes, slug);
    assert LikesOn(kept, slug) == LikesOn(likes, slug) - mine;
  }

  /** A row under a fresh id adds one like to its article. */
  lemma AddLikeCount(likes: map<LikeId, Like>, id: LikeId, l: Like)
    requires id !in likes
    ensures LikesOn(likes[id := l], l.article) == LikesOn(likes, l.article) + {id}
    ensures |LikesOn(likes[id := l], l.article)| == |LikesOn(likes, l.article)| + 1
  {
    assert LikesOn(likes[id := l], l.article) == LikesOn(likes, l.article) + {id};
  }

  /** The like rows of every other article are untouched by a toggle. */
  lemma ToggleKeepsOtherArticles(st: Store, u: UserId, slug: Slug, now: nat, other: Slug)
    requires IdsBelowCounters(st) && u in st.users && IsPublished(st, slug) && other != slug
    ensures LikesOn(ToggleLike(st, Authenticated(u), slug, now).store.likes, other) == LikesOn(st.likes, other)
  {
  }

  /** The like rows after a toggle still have existing users and articles, and still one per pair. */
  lemma ToggleKeepsLikesWellFormed(st: Store, u: UserId, slug: Slug, now: nat)
    requires LikesWellFormed(st) && IdsBelowCounters(st) && u in st.users && IsPublished(st, slug)
    ensures LikesWellFormed(ToggleLike(st, Authenticated(u), slug, now).store)
  {
    var out := ToggleLike(st, Authenticated(u), slug, now).store;
    if !LikedBy(st.likes, u, slug) {
      forall l, m | l in out.likes && m in out.likes && l != m
        ensures out.likes[l].user != out.likes[m].user || out.likes[l].article != out.likes[m].article
      {
        if l == st.nextLikeId {
          assert !IsPair(st.likes[m], u, slug);
        } else if m == st.nextLikeId {
          assert !IsPair(st.likes[l], u, slug);
        }
      }
    }
  }

  /** A toggle keeps every schema constraint, `unique_together` included. */
  lemma ToggleKeepsValid(st: Store, who: Requester, slug: Slug, now: nat)
    requires Valid(st)
    ensures Valid(ToggleLike(st, who, slug, now).store)
  {
    if KnownUser(st, who) && IsPublished(st, slug) {
      ToggleKeepsLikesWellFormed(st, who.id, slug, now);
      LikesChangeKeepsValid(st, ToggleLike(st, who, slug, now).store);
    }
  }

  // ---------------------------------------------------------------------------
  // add_comment

  /** The form fields `add_comment` reads from the POST data. */
  datatype CommentPost = CommentPost(body: Option<string>, parentId: Option<string>)

  /**
    `CommentForm` validation: the body field is required and stripped, and its
    text field rejects null characters, so it is valid exactly when some
    non-blank text without a null character was posted; the stripped text is saved.
   */
  function CleanBody(body: Option<string>): (r: Option<string>)
    ensures r.Some? <==> body.Some? && !IsBlank(body.value) && !HasNull(body.value)
    ensures r.Some? ==> r.value == Strip(body.value) && r.value != ""
  {
    if body.None? then None
    else
      StripEmptyIffBlank(body.value);
      NullSurvivesStrip(body.value);
      var s := Strip(body.value);
      if s == "" || HasNull(s) then None else Some(s)
  }

  /** The posted `parent_id` is non-empty text whose integer value is the id `n` of an existing comment. */
  predicate NamesComment(comments: map<CommentId, Comment>, raw: Option<string>, n: CommentId) {
    raw.Some? && raw.value != "" && ParseInt(raw.value) == Some(n as int) && n in comments
  }

  /** The outcome of looking up `parent_id`: a parent (or none), or an escaping `ValueError`. */
  datatype ParentLookup = Resolved(parent: Option<CommentId>) | Malformed

  /**
    `if parent_id: Comment.objects.get(id=parent_id)`, catching only
    `DoesNotExist`. The text is converted with `int()` first, so a
    non-numeric id raises `ValueError`, which is not caught.
   */
  function ResolveParent(comments: map<CommentId, Comment>, raw: Option<string>): (r: ParentLookup)
    ensures r == Malformed <==> raw.Some? && raw.value != "" && ParseInt(raw.value).None?
    ensures forall n :: r == Resolved(Some(n)) <==> NamesComment(comments, raw, n)
  {
    if raw.None? || raw.value == "" then Resolved(None)
    else match ParseInt(raw.value)
      case None => Malformed
      case Some(n) => if n >= 0 && n as CommentId in comments then Resolved(Some(n as CommentId)) else Resolved(None)
  }

  /** The row `add_comment` saves: the request's article and user, active by default. */
  function NewComment(slug: Slug, u: UserId, parent: Option<CommentId>, body: string, now: nat): (c: Comment)
    ensures c.isActive
  {
    Comment(slug, u, parent, body, now, true)
  }

  /** The store after saving `c` under the next comment id. */
  function InsertComment(st: Store, c: Comment): Store {
    st.(comments := st.comments[st.nextCommentId := c], nextCommentId := st.nextCommentId + 1)
  }

  /** With fresh comment ids, an insertion adds exactly `c` under a new id and keeps every other comment. */
  lemma InsertCommentAddsOne(st: Store, c: Comment)
    requires IdsBelowCounters(st)
    ensures
      var after := InsertComment(st, c).comments;
      && st.nextCommentId !in st.comments
      && after.Keys == st.comments.Keys + {st.nextCommentId}
      && after[st.nextCommentId] == c
      && (forall id :: id in st.comments ==> after[id] == st.comments[id])
  {
  }

  /**
    `add_comment`: on a valid POST against a published article, saves one
    comment, linking the parent when `parent_id` names an existing comment
    (of any article) and falling back to a top-level comment otherwise.
   */
  function AddComment(st: Store, who: Requester, slug: Slug, req: Request<CommentPost>, now: nat): (out: Step)
    ensures !KnownUser(st, who) ==> out == Step(st, Redirect(LoginPage))
    ensures KnownUser(st, who) && !IsPublished(st, slug) ==> out == Step(st, NotFound)
    ensures KnownUser(st, who) && IsPublished(st, slug) && (req.NonPost? || CleanBody(req.data.body).None?) ==>
      out == Step(st, Redirect(ArticlePage(slug)))
    ensures KnownUser(st, who) && IsPublished(st, slug) && req.Post? && CleanBody(req.data.body).Some? ==>
      (ResolveParent(st.comments, req.data.parentId).Malformed? ==> out == Step(st, ServerError))
    ensures out.store != st ==> out.response == Redirect(CommentsSection(slug))
    ensures out.store == st.(comments := out.store.comments, nextCommentId := out.store.nextCommentId)
  {
    if !KnownUser(st, who) then Step(st, Redirect(LoginPage))
    else if !IsPublished(st, slug) then Step(st, NotFound)
    else if req.NonPost? then Step(st, Redirect(ArticlePage(slug)))
    else match CleanBody(req.data.body)
      case None => Step(st, Redirect(ArticlePage(slug)))
      case Some(body) =>
        match ResolveParent(st.comments, req.data.parentId)
        case Malformed => Step(st, ServerError)
        case Resolved(parent) =>
          var c := NewComment(slug, who.id, parent, body, now);
          Step(InsertComment(st, c), Redirect(CommentsSection(slug)))
  }

  /**
    A valid POST whose parent id is absent, unresolvable or resolvable adds
    exactly one comment with the request's article, user and stripped body,
    active, and leaves every other comment as it was.
   */
  lemma ValidPostAddsOneComment(st: Store, u: UserId, slug: Slug, post: CommentPost, now: nat)
    requires IdsBelowCounters(st) && u in st.users && IsPublished(st, slug)
    requires CleanBody(post.body).Some? && ResolveParent(st.comments, post.parentId).Resolved?
    ensures
      var out := AddComment(st, Authenticated(u), slug, Post(post), now);
      var id := st.nextCommentId;
      && out.response == Redirect(CommentsSection(slug))
      && id !in st.comments
      && out.store.comments.Keys == st.comments.Keys + {id}
      && (forall c :: c in st.comments ==> out.store.comments[c] == st.comments[c])
      && out.store.comments[id].article == slug
      && out.store.comments[id].user == u
      && out.store.comments[id].body == Strip(post.body.value)
      && out.store.comments[id].isActive
      && out.store.comments[id].parent == ResolveParent(st.comments, post.parentId).parent
  {
    var body := CleanBody(post.body).value;
    var parent := ResolveParent(st.comments, post.parentId).parent;
    var c := NewComment(slug, u, parent, body, now);
    assert AddComment(st, Authenticated(u), slug, Post(post), now) == Step(InsertComment(st, c), Redirect(CommentsSection(slug)));
    InsertCommentAddsOne(st, c);
  }

  /** The parent is linked exactly when `parent_id` parses to the id of an existing comment. */
  lemma ParentLinkedIffResolves(st: Store, u: UserId, slug: Slug, post: CommentPost, now: nat, n: CommentId)
    requires u in st.users && IsPublished(st, slug) && CleanBody(post.body).Some?
    requires ResolveParent(st.comments, post.parentId).Resolved?
    ensures
      var out := AddComment(st, Authenticated(u), slug, Post(post), now);
      out.store.comments[st.nextCommentId].parent == Some(n) <==>
        post.parentId.Some? && ParseInt(post.parentId.value) == Some(n as int) && n in st.comments
  {
  }

  /**
    The parent lookup is by id alone: a reply posted on one article links a
    comment of another article as its parent just the same.
   */
  lemma ParentMayBelongToAnotherArticle(st: Store, u: UserId, slug: Slug, post: CommentPost, now: nat, n: CommentId)
    requires IdsBelowCounters(st) && u in st.users && IsPublished(st, slug) && CleanBody(post.body).Some?
    requires NamesComment(st.comments, post.parentId, n) && st.comments[n].article != slug
    ensures
      var out := AddComment(st, Authenticated(u), slug, Post(post), now);
      var reply := out.store.comments[st.nextCommentId];
      && reply.article == slug
      && reply.parent == Some(n)
      && out.store.comments[n].article != reply.article
  {
    ValidPostAddsOneComment(st, u, slug, post, now);
  }

  /** The comment foreign keys survive an insertion whose references exist. */
  lemma InsertCommentKeepsReferences(st: Store, c: Comment)
    requires CommentsWellFormed(st) && IdsBelowCounters(st)
    requires c.article in st.articles && c.user in st.users
    requires c.parent.Some? ==> c.parent.value in st.comments
    ensures CommentsWellFormed(InsertComment(st, c)) && IdsBelowCounters(InsertComment(st, c))
  {
    var st' := InsertComment(st, c);
    forall id | id in st'.comments
      ensures st'.comments[id].article in st'.articles && st'.comments[id].user in st'.users
      ensures st'.comments[id].parent.Some? ==> st'.comments[id].parent.value in st'.comments && st'.comments[id].parent.value < id
    {
      if id != st.nextCommentId {
        assert st'.comments[id] == st.comments[id];
      }
    }
  }

  /** Inserting a comment under the next id keeps the constraints when its references exist. */
  lemma InsertCommentKeepsValid(st: Store, c: Comment)
    requires Valid(st)
    requires c.article in st.articles && c.user in st.users
    requires c.parent.Some? ==> c.parent.value in st.comments
    ensures Valid(InsertComment(st, c))
  {
    InsertCommentKeepsReferences(st, c);
    CommentsChangeKeepsValid(st, InsertComment(st, c));
  }

  /** Saving a comment keeps every schema constraint; a parent always has a smaller id. */
  lemma AddCommentKeepsValid(st: Store, who: Requester, slug: Slug, req: Request<CommentPost>, now: nat)
    requires Valid(st)
    ensures Valid(AddComment(st, who, slug, req, now).store)
  {
    var out := AddComment(st, who, slug, req, now);
    if KnownUser(st, who) && IsPublished(st, slug) && req.Post? && CleanBody(req.data.body).Some?
      && ResolveParent(st.comments, req.data.parentId).Resolved?
    {
      var lookup := ResolveParent(st.comments, req.data.parentId);
      var c := NewComment(slug, who.id, lookup.parent, CleanBody(req.data.body).value, now);
      assert lookup.parent.Some? ==> NamesComment(st.comments, req.data.parentId, lookup.parent.value);
      InsertCommentKeepsValid(st, c);
      assert out.store == InsertComment(st, c);
    } else {
      assert out.store == st;
    }
  }

  /**
    As written, a non-numeric `parent_id` makes `int()` raise `ValueError`,
    which the `except Comment.DoesNotExist` does not catch: the request fails
    with a server error instead of falling back to a top-level comment.
   */
  lemma MalformedParentIsServerError(st: Store, u: UserId, slug: Slug, body: string, now: nat)
    requires u in st.users && IsPublished(st, slug) && !IsBlank(body) && !HasNull(body)
    ensures AddComment(st, Authenticated(u), slug, Post(CommentPost(Some(body), Some("abc"))), now) == Step(st, ServerError)
  {
    ParseRejectsLetters("abc", 0);
  }

  /**
    `add_comment` with the evident intent of its fallback: a `parent_id` that
    does not name a comment, numeric or not, gives a top-level comment.
   */
  function AddCommentSoft(st: Store, who: Requester, slug: Slug, req: Request<CommentPost>, now: nat): (out: Step)
    ensures out.response != ServerError
  {
    var out := AddComment(st, who, slug, req, now);
    if out.response == ServerError then AddComment(st, who, slug, Post(req.data.(parentId := None)), now) else out
  }

  /** The corrected view agrees with the original whenever the original does not fail, and otherwise saves a top-level comment. */
  lemma AddCommentSoftAgrees(st: Store, who: Requester, slug: Slug, req: Request<CommentPost>, now: nat)
    ensures
      var asWritten := AddComment(st, who, slug, req, now);
      var soft := AddCommentSoft(st, who, slug, req, now);
      && (asWritten.response != ServerError ==> soft == asWritten)
      && (asWritten.response == ServerError ==>
            && req.Post?
            && soft.response == Redirect(CommentsSection(slug))
            && soft.store.comments[st.nextCommentId].parent == None)
  {
  }

  /** The corrected view keeps every schema constraint too. */
  lemma AddCommentSoftKeepsValid(st: Store, who: Requester, slug: Slug, req: Request<CommentPost>, now: nat)
    requires Valid(st)
    ensures Valid(AddCommentSoft(st, who, slug, req, now).store)
  {
    AddCommentKeepsValid(st, who, slug, req, now);
    if req.Post? {
      AddCommentKeepsValid(st, who, slug, Post(req.data.(parentId := None)), now);
    }
  }

  // ---------------------------------------------------------------------------
  // ArticleDetailView

  /** The context `ArticleDetailView` adds: the article, whether the viewer likes it, and its like count. */
  datatype DetailContext = DetailContext(article: Article, isLiked: bool, totalLikes: nat)

  /**
    `ArticleDetailView`: the detail queryset only holds published articles,
    so any other slug is a 404; `is_liked` is false unless the session names an existing user.
   */
  function ArticleDetail(st: Store, who: Requester, slug: Slug): (r: Option<DetailContext>)
    ensures r.Some? <==> IsPublished(st, slug)
    ensures r.Some? ==> slug in st.articles && r.value.article == st.articles[slug] && r.value.article.status == Published
    ensures r.Some? && !KnownUser(st, who) ==> !r.value.isLiked
    ensures r.Some? && KnownUser(st, who) ==> (r.value.isLiked <==> (who.id, slug) in LikePairs(st.likes))
    ensures r.Some? ==> r.value.totalLikes == |LikesOn(st.likes, slug)|
  {
    if !IsPublished(st, slug) then None
    else if !KnownUser(st, who) then Some(DetailContext(st.articles[slug], false, |LikesOn(st.likes, slug)|))
    else
      LikedByIffPair(st.likes, who.id, slug);
      Some(DetailContext(st.articles[slug], LikedBy(st.likes, who.id, slug), |LikesOn(st.likes, slug)|))
  }

  /** The users who like `slug`: the users of its like rows. */
  function Likers(likes: map<LikeId, Like>, slug: Slug): set<UserId> {
    set id | id in likes && likes[id].article == slug :: likes[id].user
  }

  /**
    `total_likes` counts like rows; with one row per pair that is the number
    of users `v` for which (v, slug) is among the liked pairs.
   */
  lemma TotalLikesCountsLikers(st: Store, slug: Slug)
    requires LikesWellFormed(st)
    ensures |LikesOn(st.likes, slug)| == |Likers(st.likes, slug)|
    ensures forall v :: v in Likers(st.likes, slug) <==> (v, slug) in LikePairs(st.likes)
  {
    LikesOnMatchesLikers(st.likes, slug);
    forall v | (v, slug) in LikePairs(st.likes)
      ensures v in Likers(st.likes, slug)
    {
      var k :| k in st.likes && (st.likes[k].user, st.likes[k].article) == (v, slug);
    }
  }

  /** Induction over the like rows behind `TotalLikesCountsLikers`. */
  lemma {:induction false} LikesOnMatchesLikers(likes: map<LikeId, Like>, slug: Slug)
    requires forall l, m :: l in likes && m in likes && l != m ==>
      likes[l].user != likes[m].user || likes[l].article != likes[m].article
    ensures |LikesOn(likes, slug)| == |Likers(likes, slug)|
    decreases |likes|
  {
    if likes == map[] {
      assert LikesOn(likes, slug) == {};
      assert Likers(likes, slug) == {};
    } else {
      var id :| id in likes;
      var rest := likes - {id};
      var l := likes[id];
      LikesOnMatchesLikers(rest, slug);
      LikesOnAfterRemoval(likes, id, slug);
      LikersAfterRemoval(likes, id, slug);
    }
  }

  /** Removing a row takes it off its article's like rows and leaves other articles' rows alone. */
  lemma LikesOnAfterRemoval(likes: map<LikeId, Like>, id: LikeId, slug: Slug)
    requires id in likes
    ensures |LikesOn(likes, slug)| == |LikesOn(likes - {id}, slug)| + (if likes[id].article == slug then 1 else 0)
  {
    if likes[id].article == slug {
      assert LikesOn(likes, slug) == LikesOn(likes - {id}, slug) + {id};
    } else {
      assert LikesOn(likes, slug) == LikesOn(likes - {id}, slug);
    }
  }

  /** Removing the only row of a pair takes exactly its user out of the article's likers. */
  lemma LikersAfterRemoval(likes: map<LikeId, Like>, id: LikeId, slug: Slug)
    requires id in likes
    requires forall l, m :: l in likes && m in likes && l != m ==>
      likes[l].user != likes[m].user || likes[l].article != likes[m].article
    ensures |Likers(likes, slug)| == |Likers(likes - {id}, slug)| + (if likes[id].article == slug then 1 else 0)
  {
    var rest := likes - {id};
    var l := likes[id];
    forall v | v in Likers(likes, slug)
      ensures v in Likers(rest, slug) || (l.article == slug && v == l.user)
    {
      var k :| k in likes && likes[k].article == slug && likes[k].user == v;
      if k != id {
        assert k in rest;
      }
    }
    if l.article == slug {
      forall k | k in rest && rest[k].article == slug
        ensures rest[k].user != l.user
      {
        assert k != id;
      }
      assert Likers(likes, slug) == Likers(rest, slug) + {l.user};
    } else {
      assert Likers(likes, slug) == Likers(rest, slug);
    }
  }

  /**
    What the detail page shows after a toggle: `is_liked` flips for the
    toggling user, and `total_likes` moves by one in the same direction.
   */
  lemma DetailAfterToggle(st: Store, u: UserId, slug: Slug, now: nat)
    requires Valid(st) && u in st.users && IsPublished(st, slug)
    ensures
      var before := ArticleDetail(st, Authenticated(u), slug).value;
      var after := ArticleDetail(ToggleLike(st, Authenticated(u), slug, now).store, Authenticated(u), slug).value;
      && after.isLiked == !before.isLiked
      && after.totalLikes == if before.isLiked then before.totalLikes - 1 else before.totalLikes + 1
  {
    ToggleMovesCountByOne(st, u, slug, now);
  }
}

=== FILE: moderation.dfy ===
/**
  The comment admin's bulk action `approve_comments` (blog/admin.py):
  `queryset.update(is_active=True)` over the comments an administrator
  selected. Selected ids that no longer exist match no row.
 */
module Moderation {
  import opened Store

  /** `approve_comments`: every selected comment becomes active; nothing else about any comment changes. */
  function ApproveComments(st: Store, selected: set<CommentId>): (st': Store)
    ensures st'.comments.Keys == st.comments.Keys
    ensures forall id :: id in st'.comments && id in selected ==> st'.comments[id].isActive
    ensures forall id :: id in st'.comments && id !in selected ==> st'.comments[id] == st.comments[id]
    ensures forall id :: id in st'.comments ==> st'.comments[id].(isActive := st.comments[id].isActive) == st.comments[id]
    ensures st' == st.(comments := st'.comments)
  {
    st.(comments := map id | id in st.comments ::
      if id in selected then st.comments[id].(isActive := true) else st.comments[id])
  }

  /** Approving the same selection again changes nothing. */
  lemma ApproveIdempotent(st: Store, selected: set<CommentId>)
    ensures ApproveComments(ApproveComments(st, selected), selected) == ApproveComments(st, selected)
  {
    var once := ApproveComments(st, selected);
    var twice := ApproveComments(once, selected);
    assert twice.comments == once.comments by {
      forall id | id in once.comments
        ensures twice.comments[id] == once.comments[id]
      {
        if id in selected {
          assert once.comments[id] == st.comments[id].(isActive := true);
        }
      }
    }
  }

  /** Two approvals in a row act as one approval of both selections. */
  lemma ApproveInSteps(st: Store, first: set<CommentId>, second: set<CommentId>)
    ensures ApproveComments(ApproveComments(st, first), second) == ApproveComments(st, first + second)
  {
    var stepwise := ApproveComments(ApproveComments(st, first), second);
    var together := ApproveComments(st, first + second);
    assert stepwise.comments == together.comments by {
      forall id | id in st.comments
        ensures stepwise.comments[id] == together.comments[id]
      {
        if id in first + second {
          assert together.comments[id] == st.comments[id].(isActive := true);
        }
      }
    }
  }

  /** Approval touches only `is_active`, so every schema constraint still holds. */
  lemma ApproveKeepsValid(st: Store, selected: set<CommentId>)
    requires Valid(st)
    ensures Valid(ApproveComments(st, selected))
  {
    var st' := ApproveComments(st, selected);
    assert st'.users == st.users && st'.articles == st.articles && st'.likes == st.likes && st'.profiles == st.profiles;
    forall id | id in st'.comments
      ensures st'.comments[id].article == st.comments[id].article && st'.comments[id].user == st.comments[id].user
      ensures st'.comments[id].parent == st.comments[id].parent
    {
      assert st'.comments[id].(isActive := st.comments[id].isActive) == st.comments[id];
    }
  }
}

=== FILE: ordering.dfy ===
/**
  The default orderings of the blog: articles by `-created` and comments by
  `-created_at`, i.e. newest first. Keys are sorted by a map from key to its
  (abstract) creation time; keys created at the same instant may come in
  either order, as they may from the database.
 */
module Ordering {
  import opened Base

  /** No key occurs twice in `s`. */
  ghost predicate Distinct<K>(s: seq<K>) {
    forall i, j :: 0 <= i < j < |s| ==> s[i] != s[j]
  }

  /** Every key of `s` has a creation time and no key is older than one after it. */
  ghost predicate SortedNewestFirst<K>(s: seq<K>, created: map<K, nat>) {
    && (forall i :: 0 <= i < |s| ==> s[i] in created)
    && (forall i, j :: 0 <= i < j < |s| ==> created[s[i]] >= created[s[j]])
  }

  /** `s` lists every key of `created` exactly once, newest first. */
  ghost predicate NewestFirst<K>(s: seq<K>, created: map<K, nat>) {
    && Distinct(s)
    && SortedNewestFirst(s, created)
    && |s| == |created|
    && (forall k :: k in created ==> k in s)
  }

  /**
    `s` is the `n` newest keys of `created` (all of them when there are fewer),
    newest first: no key left out is newer than a key kept.
   */
  ghost predicate NewestN<K>(s: seq<K>, created: map<K, nat>, n: nat) {
    && Distinct(s)
    && SortedNewestFirst(s, created)
    && |s| == Min(n, |created|)
    && (forall k, i :: k in created && k !in s && 0 <= i < |s| ==> created[k] <= created[s[i]])
  }

  /** Places `k` into the newest-first sequence `s`, before the first key not newer than it. */
  function Insert<K(!new)>(s: seq<K>, k: K, created: map<K, nat>): (r: seq<K>)
    requires k in created && SortedNewestFirst(s, created)
    ensures SortedNewestFirst(r, created)
    ensures |r| == |s| + 1
    ensures r[0] == k || (s != [] && r[0] == s[0])
    ensures forall x :: x in r <==> x == k || x in s
    ensures Distinct(s) && k !in s ==> Distinct(r)
    decreases |s|
  {
    if s == [] || created[k] >= created[s[0]] then
      [k] + s
    else
      var rest := Insert(s[1..], k, created);
      assert created[s[0]] >= created[rest[0]];
      assert Distinct(s) ==> s[0] !in s[1..];
      [s[0]] + rest
  }

  /** Lists the keys of `created` newest first (the `order_by('-created')` of a query). */
  method SortNewestFirst<K(!new)>(created: map<K, nat>) returns (r: seq<K>)
    ensures NewestFirst(r, created)
  {
    r := [];
    var rest := created.Keys;
    while rest != {}
      invariant rest <= created.Keys
      invariant Distinct(r) && SortedNewestFirst(r, created)
      invariant |r| + |rest| == |created|
      invariant forall k :: k in rest ==> k !in r
      invariant forall k :: k in created && k !in rest ==> k in r
      decreases |rest|
    {
      var k :| k in rest;
      r := Insert(r, k, created);
      rest := rest - {k};
    }
  }

  /** The first `n` elements of `s` (the `[:n]` slice of a query set). */
  function Take<K>(s: seq<K>, n: nat): (r: seq<K>)
    ensures |r| == Min(n, |s|)
    ensures r == s[..|r|]
  {
    if |s| <= n then s else s[..n]
  }

  /** Slicing a full newest-first listing gives the newest `n` keys. */
  lemma TakeNewestFirst<K>(s: seq<K>, created: map<K, nat>, n: nat)
    requires NewestFirst(s, created)
    ensures NewestN(Take(s, n), created, n)
  {
    var r := Take(s, n);
    forall k, i | k in created && k !in r && 0 <= i < |r|
      ensures created[k] <= created[r[i]]
    {
      var j :| 0 <= j < |s| && s[j] == k;
      assert forall m :: 0 <= m < |r| ==> r[m] == s[m];
      assert r[i] == s[i];
    }
  }
}

=== FILE: queries.dfy ===
/**
  The public read paths: the querysets of the list, category and search
  views (blog/views.py), the sidebar context processors
  (blog/context_processors.py) and the home page (home/views.py). Every one
  of them filters on `status='p'`; all article lists use the model's default
  ordering, newest `created` first. Pagination is not modelled.
 */
module Queries {
  import opened Base
  import opened Text
  import opened Store
  import opened Ordering

  // ---------------------------------------------------------------------------
  // The article sets each query selects, with the creation time that orders them

  /** `Article.objects.filter(status='p')`. */
  function PublishedTimes(articles: map<Slug, Article>): map<Slug, nat> {
    map s | s in articles && articles[s].status == Published :: articles[s].created
  }

  /** `Article.objects.filter(category=c, status='p')`. */
  function CategoryTimes(articles: map<Slug, Article>, c: CategoryId): map<Slug, nat> {
    map s | s in articles && articles[s].status == Published && c in articles[s].categories :: articles[s].created
  }

  /** `Article.objects.filter(title__icontains=q, status='p')`. */
  function SearchTimes(articles: map<Slug, Article>, q: string): map<Slug, nat> {
    map s | s in articles && articles[s].status == Published && ContainsIgnoringCase(articles[s].title, q) :: articles[s].created
  }

  /** The published articles with an image that is neither NULL nor empty. */
  function BannerTimes(articles: map<Slug, Article>): map<Slug, nat> {
    map s | s in articles && articles[s].status == Published && HasImage(articles[s].image) :: articles[s].created
  }

  // ---------------------------------------------------------------------------
  // blog/views.py

  /** `ArticleListView`: every published article, newest first, and nothing else. */
  method ArticleList(st: Store) returns (r: seq<Slug>)
    ensures NewestFirst(r, PublishedTimes(st.articles))
    ensures forall i :: 0 <= i < |r| ==> IsPublished(st, r[i])
    ensures forall s :: IsPublished(st, s) ==> s in r
  {
    r := SortNewestFirst(PublishedTimes(st.articles));
  }

  /**
    `CategoryArticleListView`: a 404 for an unknown category, else the
    published articles linked to it, newest first.
   */
  method CategoryArticles(st: Store, c: CategoryId) returns (r: Option<seq<Slug>>)
    ensures r.None? <==> c !in st.categories
    ensures r.Some? ==> NewestFirst(r.value, CategoryTimes(st.articles, c))
    ensures r.Some? ==> forall i :: 0 <= i < |r.value| ==>
      IsPublished(st, r.value[i]) && c in st.articles[r.value[i]].categories
  {
    if c !in st.categories {
      return None;
    }
    var listed := SortNewestFirst(CategoryTimes(st.articles, c));
    r := Some(listed);
  }

  /**
    `SearchListView`: a missing or empty `q` gives no articles at all; any
    other `q` gives exactly the published articles whose title contains it,
    ignoring case, newest first.
   */
  method Search(st: Store, q: Option<string>) returns (r: seq<Slug>)
    ensures (q.None? || q.value == "") ==> r == []
    ensures q.Some? && q.value != "" ==> NewestFirst(r, SearchTimes(st.articles, q.value))
    ensures forall i :: 0 <= i < |r| ==>
      IsPublished(st, r[i]) && q.Some? && ContainsIgnoringCase(st.articles[r[i]].title, q.value)
  {
    if q.None? || q.value == "" {
      return [];
    }
    r := SortNewestFirst(SearchTimes(st.articles, q.value));
  }

  /** The search does not depend on the letter case of the query. */
  lemma SearchIgnoresQueryCase(articles: map<Slug, Article>, q: string)
    ensures SearchTimes(articles, Lower(q)) == SearchTimes(articles, q)
  {
    forall s | s in articles
      ensures ContainsIgnoringCase(articles[s].title, Lower(q)) == ContainsIgnoringCase(articles[s].title, q)
    {
      ContainsIgnoresQueryCase(articles[s].title, q);
    }
  }

  /** A draft is never listed, found by a category or a search, or shown in the banner. */
  lemma DraftsAreNeverListed(st: Store, s: Slug, c: CategoryId, q: string)
    requires s in st.articles && st.articles[s].status == Draft
    ensures s !in PublishedTimes(st.articles) && s !in CategoryTimes(st.articles, c)
    ensures s !in SearchTimes(st.articles, q) && s !in BannerTimes(st.articles)
  {
  }

  /** `article.comments`, ordered by `-created_at`: every comment of the article, active or not, newest first. */
  function CommentTimes(comments: map<CommentId, Comment>, slug: Slug): map<CommentId, nat> {
    map id | id in comments && comments[id].article == slug :: comments[id].createdAt
  }

  method ArticleComments(st: Store, slug: Slug) returns (r: seq<CommentId>)
    ensures NewestFirst(r, CommentTimes(st.comments, slug))
    ensures forall i :: 0 <= i < |r| ==> r[i] in st.comments && st.comments[r[i]].article == slug
  {
    r := SortNewestFirst(CommentTimes(st.comments, slug));
  }

  // ---------------------------------------------------------------------------
  // blog/context_processors.py

  const RecentPostsLimit: nat := 5

  /** Categories linked to at least one published article (the sidebar's `filter(articles__status='p').distinct()`). */
  function CategoriesWithPublished(st: Store): set<CategoryId> {
    set c | c in st.categories && exists s :: s in st.articles && st.articles[s].status == Published && c in st.articles[s].categories
  }

  /** The articles linked to category `c`, whatever their status. */
  function ArticlesIn(st: Store, c: CategoryId): set<Slug> {
    set s | s in st.articles && c in st.articles[s].categories
  }

  /**
    `sidebar_data`: the five newest published articles, newest first, and the
    categories having a published article, each once.
   */
  method SidebarData(st: Store) returns (recent: seq<Slug>, cats: set<CategoryId>)
    ensures NewestN(recent, PublishedTimes(st.articles), RecentPostsLimit)
    ensures |recent| <= RecentPostsLimit
    ensures forall i :: 0 <= i < |recent| ==> IsPublished(st, recent[i])
    ensures forall c :: c in cats <==> c in st.categories && exists s :: IsPublished(st, s) && c in st.articles[s].categories
  {
    var all := SortNewestFirst(PublishedTimes(st.articles));
    TakeNewestFirst(all, PublishedTimes(st.articles), RecentPostsLimit);
    recent := Take(all, RecentPostsLimit);
    cats := CategoriesWithPublished(st);
  }

  /**
    `all_categories`: each category with at least one linked article of any
    status, with `num_articles`, the number of those articles.
   */
  function AllCategories(st: Store): (r: map<CategoryId, nat>)
    ensures forall c :: c in r ==> c in st.categories && r[c] == |ArticlesIn(st, c)| && r[c] > 0
    ensures forall c :: c in st.categories && ArticlesIn(st, c) != {} ==> c in r
  {
    map c | c in st.categories && |ArticlesIn(st, c)| > 0 :: |ArticlesIn(st, c)|
  }

  /**
    The two category rules differ on drafts: a category whose only articles
    are drafts is in `all_categories` but not in the sidebar; every sidebar
    category is in `all_categories`.
   */
  lemma SidebarCategoriesWithinAll(st: Store, c: CategoryId, draft: Slug)
    requires c in st.categories && draft in st.articles && c in st.articles[draft].categories
    requires forall s :: s in st.articles && c in st.articles[s].categories ==> st.articles[s].status == Draft
    ensures c in AllCategories(st) && c !in CategoriesWithPublished(st)
    ensures CategoriesWithPublished(st) <= AllCategories(st).Keys
  {
    assert draft in ArticlesIn(st, c);
    forall d | d in CategoriesWithPublished(st)
      ensures d in AllCategories(st)
    {
      var s :| s in st.articles && st.articles[s].status == Published && d in st.articles[s].categories;
      assert s in ArticlesIn(st, d);
    }
  }

  // ---------------------------------------------------------------------------
  // home/views.py

  const BannerLimit: nat := 6

  /**
    `home`: every published article newest first, and the banner: the six
    newest published articles that carry an image.
   */
  method Home(st: Store) returns (all: seq<Slug>, banner: seq<Slug>)
    ensures NewestFirst(all, PublishedTimes(st.articles))
    ensures NewestN(banner, BannerTimes(st.articles), BannerLimit)
    ensures |banner| <= BannerLimit
    ensures forall i :: 0 <= i < |banner| ==> IsPublished(st, banner[i]) && HasImage(st.articles[banner[i]].image)
  {
    all := SortNewestFirst(PublishedTimes(st.articles));
    var withImage := SortNewestFirst(BannerTimes(st.articles));
    TakeNewestFirst(withImage, BannerTimes(st.articles), BannerLimit);
    banner := Take(withImage, BannerLimit);
  }
}

=== FILE: store.dfy ===
/**
  The blog's database as one immutable value: the rows of `User`, `Profile`,
  `Category`, `Article`, `Comment` and `Like`, plus the auto-increment
  counters that hand out fresh primary keys. Foreign keys are plain ids.
  The predicate `Valid` joins the constraints the schema declares (foreign
  keys, `unique`, `unique_together`, at most one profile per user) with what
  the modelled operations keep: the `create_user_profile` hook gives every
  user a profile, and a reply's parent is an older comment.
 */
module Store {
  import opened Base

  type UserId = nat
  type CategoryId = nat
  type CommentId = nat
  type LikeId = nat

  /** An article's slug, its identity in every URL and lookup. */
  type Slug = string

  /** The two publication states of an article; stored as the one-letter codes 'd' and 'p'. */
  datatype Status = Draft | Published

  function StatusCode(s: Status): char {
    match s
    case Draft => 'd'
    case Published => 'p'
  }

  /** Reads a stored status code; only the two declared choices are statuses. */
  function StatusFromCode(c: char): (r: Option<Status>)
    ensures r.Some? <==> c == 'd' || c == 'p'
    ensures r.Some? ==> StatusCode(r.value) == c
  {
    if c == 'd' then Some(Draft) else if c == 'p' then Some(Published) else None
  }

  /** The status of an article saved without one. */
  const DefaultStatus: Status := Draft

  /**
    An image column: SQL NULL (`NoFile`) or a stored file name, which may be
    the empty string when the form left the field blank.
   */
  datatype ImageField = NoFile | File(name: string)

  /** Neither NULL nor the empty name: what `exclude(image__isnull=True).exclude(image__exact='')` keeps. */
  predicate HasImage(img: ImageField) {
    img.File? && img.name != ""
  }

  datatype User = User(username: string, email: string, firstName: string, lastName: string)

  /** The extra per-user data of `accounts.Profile`; its key in the store is its user's id. */
  datatype Profile = Profile(fathersName: string, mliCode: string, image: ImageField)

  const FathersNameMaxLength: nat := 50
  const MliCodeMaxLength: nat := 10

  datatype Category = Category(title: string, created: nat)

  datatype Article = Article(
    title: string,
    body: string,
    image: ImageField,
    status: Status,
    author: UserId,
    categories: set<CategoryId>,
    created: nat,
    updated: nat)

  datatype Comment = Comment(
    article: Slug,
    user: UserId,
    parent: Option<CommentId>,
    body: string,
    createdAt: nat,
    isActive: bool)

  datatype Like = Like(user: UserId, article: Slug, createdAt: nat)

  datatype Store = Store(
    users: map<UserId, User>,
    profiles: map<UserId, Profile>,
    categories: map<CategoryId, Category>,
    articles: map<Slug, Article>,
    comments: map<CommentId, Comment>,
    likes: map<LikeId, Like>,
    nextUserId: UserId,
    nextCommentId: CommentId,
    nextLikeId: LikeId)

  // ---------------------------------------------------------------------------
  // Lookups shared by the views

  /** `get_object_or_404(Article, slug=slug, status='p')` finds a row. */
  predicate IsPublished(st: Store, slug: Slug) {
    slug in st.articles && st.articles[slug].status == Published
  }

  /** The ids of the `Like` rows for the pair (user, article). */
  function LikesOf(likes: map<LikeId, Like>, u: UserId, slug: Slug): set<LikeId> {
    set id | id in likes && likes[id].user == u && likes[id].article == slug
  }

  /** `Like.objects.filter(article=..., user=...).exists()`. */
  predicate LikedBy(likes: map<LikeId, Like>, u: UserId, slug: Slug) {
    exists id :: id in likes && likes[id].user == u && likes[id].article == slug
  }

  /** The ids of the `Like` rows of an article (`article.article_likes`). */
  function LikesOn(likes: map<LikeId, Like>, slug: Slug): set<LikeId> {
    set id | id in likes && likes[id].article == slug
  }

  /** The (user, article) pairs the like rows record, ignoring their ids and times. */
  function LikePairs(likes: map<LikeId, Like>): set<(UserId, Slug)> {
    set id | id in likes :: (likes[id].user, likes[id].article)
  }

  // ---------------------------------------------------------------------------
  // Schema constraints

  /** Auto-increment keys: every stored id is below the counter that hands out the next one. */
  ghost predicate IdsBelowCounters(st: Store) {
    && (forall u :: u in st.users ==> u < st.nextUserId)
    && (forall c :: c in st.comments ==> c < st.nextCommentId)
    && (forall l :: l in st.likes ==> l < st.nextLikeId)
  }

  /** `unique=True` on `User.username`. */
  ghost predicate UsersWellFormed(users: map<UserId, User>) {
    forall u, v :: u in users && v in users && u != v ==> users[u].username != users[v].username
  }

  /** Article foreign keys, and `unique=True` on the title (the slug is unique as the key). */
  ghost predicate ArticlesWellFormed(st: Store) {
    && (forall s :: s in st.articles ==> st.articles[s].author in st.users)
    && (forall s :: s in st.articles ==> st.articles[s].categories <= st.categories.Keys)
    && (forall s, t :: s in st.articles && t in st.articles && s != t ==> st.articles[s].title != st.articles[t].title)
  }

  /**
    Comment foreign keys. A parent is always an existing comment with a
    smaller id (it existed when the reply was saved), so parent chains are acyclic.
   */
  ghost predicate CommentsWellFormed(st: Store) {
    forall c :: c in st.comments ==>
      && st.comments[c].article in st.articles
      && st.comments[c].user in st.users
      && (st.comments[c].parent.Some? ==> st.comments[c].parent.value in st.comments && st.comments[c].parent.value < c)
  }

  /** Like foreign keys and `unique_together = ('user', 'article')`. */
  ghost predicate LikesWellFormed(st: Store) {
    && (forall l :: l in st.likes ==> st.likes[l].user in st.users && st.likes[l].article in st.articles)
    && (forall l, m :: l in st.likes && m in st.likes && l != m ==>
          st.likes[l].user != st.likes[m].user || st.likes[l].article != st.likes[m].article)
  }

  /**
    Exactly one profile per user: the one-to-one field allows at most one and
    the `create_user_profile` hook supplies it. The profile columns respect
    their `max_length`.
   */
  ghost predicate ProfilesWellFormed(st: Store) {
    && st.profiles.Keys == st.users.Keys
    && (forall u :: u in st.profiles ==>
          |st.profiles[u].fathersName| <= FathersNameMaxLength && |st.profiles[u].mliCode| <= MliCodeMaxLength)
  }

  /** The schema's constraints together with the invariants the modelled operations keep. */
  ghost predicate Valid(st: Store) {
    && IdsBelowCounters(st)
    && UsersWellFormed(st.users)
    && ArticlesWellFormed(st)
    && CommentsWellFormed(st)
    && LikesWellFormed(st)
    && ProfilesWellFormed(st)
  }

  // ---------------------------------------------------------------------------
  // Framing: a change to some tables leaves the constraints on the others intact

  /** A change of the like rows alone keeps `Valid` when the new rows meet the like constraints. */
  lemma LikesChangeKeepsValid(st: Store, st': Store)
    requires Valid(st) && st' == st.(likes := st'.likes, nextLikeId := st'.nextLikeId)
    requires LikesWellFormed(st') && forall l :: l in st'.likes ==> l < st'.nextLikeId
    ensures Valid(st')
  {
    assert st'.users == st.users && st'.articles == st.articles && st'.comments == st.comments;
    assert ArticlesWellFormed(st') && CommentsWellFormed(st') && ProfilesWellFormed(st');
  }

  /** A change of the comment rows alone keeps `Valid` when the new rows meet the comment constraints. */
  lemma CommentsChangeKeepsValid(st: Store, st': Store)
    requires Valid(st) && st' == st.(comments := st'.comments, nextCommentId := st'.nextCommentId)
    requires CommentsWellFormed(st') && forall c :: c in st'.comments ==> c < st'.nextCommentId
    ensures Valid(st')
  {
    assert st'.users == st.users && st'.articles == st.articles && st'.likes == st.likes;
    assert ArticlesWellFormed(st') && LikesWellFormed(st') && ProfilesWellFormed(st');
  }

  /** A change of the article rows alone, dropping no article, keeps `Valid` when the new rows meet the article constraints. */
  lemma ArticlesChangeKeepsValid(st: Store, st': Store)
    requires Valid(st) && st' == st.(articles := st'.articles)
    requires st.articles.Keys <= st'.articles.Keys && ArticlesWellFormed(st')
    ensures Valid(st')
  {
    assert st'.users == st.users && st'.comments == st.comments && st'.likes == st.likes && st'.profiles == st.profiles;
    assert CommentsWellFormed(st') && LikesWellFormed(st');
  }

  /**
    A change of the user and profile rows alone, dropping no user, keeps
    `Valid` when the new rows meet the user and profile constraints.
   */
  lemma AccountsChangeKeepsValid(st: Store, st': Store)
    requires Valid(st) && st' == st.(users := st'.users, profiles := st'.profiles, nextUserId := st'.nextUserId)
    requires st.users.Keys <= st'.users.Keys
    requires UsersWellFormed(st'.users) && ProfilesWellFormed(st') && forall u :: u in st'.users ==> u < st'.nextUserId
    ensures Valid(st')
  {
    assert st'.articles == st.articles && st'.comments == st.comments && st'.likes == st.likes;
    assert ArticlesWellFormed(st') && CommentsWellFormed(st') && LikesWellFormed(st');
  }

  /** Under `unique_together` a pair has no like row or exactly one. */
  lemma AtMostOneLikePerPair(st: Store, u: UserId, slug: Slug)
    requires LikesWellFormed(st)
    ensures |LikesOf(st.likes, u, slug)| <= 1
    ensures LikedBy(st.likes, u, slug) <==> |LikesOf(st.likes, u, slug)| == 1
  {
    var ids := LikesOf(st.likes, u, slug);
    if LikedBy(st.likes, u, slug) {
      var id :| id in st.likes && st.likes[id].user == u && st.likes[id].article == slug;
      assert id in ids;
    }
    if ids != {} {
      var l :| l in ids;
      assert ids == {l};
    }
  }
}

=== FILE: text.dfy ===
/**
  Text helpers used by form cleaning, the search filter and the parsing of a
  posted comment id. They follow the Python built-ins the views rely on:
  `str.strip()`, `int(str)` and a case-insensitive substring test.
 */
module Text {
  import opened Base

  /** The characters Python's `str.isspace` accepts, i.e. those `str.strip()` removes. */
  predicate IsSpace(c: char) {
    var n := c as int;
    || (9 <= n <= 13)
    || (0x1C <= n <= 0x20)
    || n == 0x85 || n == 0xA0 || n == 0x1680
    || (0x2000 <= n <= 0x200A)
    || n == 0x2028 || n == 0x2029 || n == 0x202F || n == 0x205F || n == 0x3000
  }

  /** Every character of `s` is white space (the empty string is blank). */
  predicate IsBlank(s: string) {
    forall i :: 0 <= i < |s| ==> IsSpace(s[i])
  }

  /** Drops the leading white space of `s`. */
  function TrimLeft(s: string): (r: string)
    ensures |r| <= |s|
    decreases |s|
  {
    if s == [] || !IsSpace(s[0]) then s else TrimLeft(s[1..])
  }

  /** Drops the trailing white space of `s`. */
  function TrimRight(s: string): (r: string)
    ensures |r| <= |s|
    decreases |s|
  {
    if s == [] || !IsSpace(s[|s| - 1]) then s else TrimRight(s[..|s| - 1])
  }

  /** `TrimLeft(s)` is a suffix of `s`, everything before it is white space, and it starts with a non-space. */
  lemma {:induction false} TrimLeftWindow(s: string)
    ensures var r := TrimLeft(s); r == s[|s| - |r|..] && IsBlank(s[..|s| - |r|]) && (r == [] || !IsSpace(r[0]))
    decreases |s|
  {
    if s != [] && IsSpace(s[0]) {
      var r := TrimLeft(s[1..]);
      TrimLeftWindow(s[1..]);
      assert s[..|s| - |r|] == [s[0]] + s[1..][..|s| - 1 - |r|];
    }
  }

  /** `TrimRight(s)` is a prefix of `s`, everything after it is white space, and it ends with a non-space. */
  lemma {:induction false} TrimRightWindow(s: string)
    ensures var r := TrimRight(s); r == s[..|r|] && IsBlank(s[|r|..]) && (r == [] || !IsSpace(r[|r| - 1]))
    decreases |s|
  {
    if s != [] && IsSpace(s[|s| - 1]) {
      var r := TrimRight(s[..|s| - 1]);
      TrimRightWindow(s[..|s| - 1]);
      assert s[|r|..] == s[..|s| - 1][|r|..] + [s[|s| - 1]];
    }
  }

  /** Python's `s.strip()`: the middle of `s` between its leading and trailing white space. */
  function Strip(s: string): (r: string)
    ensures |r| <= |s|
  {
    TrimRight(TrimLeft(s))
  }

  /** Where `Strip(s)` sits inside `s`: a window with only white space before and after it, and no white space at its ends. */
  lemma StripWindow(s: string) returns (i: nat)
    ensures i + |Strip(s)| <= |s| && Strip(s) == s[i..i + |Strip(s)|]
    ensures forall j :: 0 <= j < i ==> IsSpace(s[j])
    ensures forall j :: i + |Strip(s)| <= j < |s| ==> IsSpace(s[j])
    ensures Strip(s) == [] || (!IsSpace(Strip(s)[0]) && !IsSpace(Strip(s)[|Strip(s)| - 1]))
  {
    var l := TrimLeft(s);
    var t := TrimRight(l);
    TrimLeftWindow(s);
    TrimRightWindow(l);
    i := |s| - |l|;
    assert s[i + |t|..] == l[|t|..];
    forall j | 0 <= j < i
      ensures IsSpace(s[j])
    {
      assert s[..i][j] == s[j];
    }
    forall j | i + |t| <= j < |s|
      ensures IsSpace(s[j])
    {
      assert s[i + |t|..][j - i - |t|] == s[j];
    }
    if t != [] {
      assert t[0] == l[0];
    }
  }

  /** Stripping yields the empty string exactly when the input is blank. */
  lemma StripEmptyIffBlank(s: string)
    ensures Strip(s) == [] <==> IsBlank(s)
  {
    var t := Strip(s);
    var i := StripWindow(s);
    assert t != [] ==> t[0] == s[i] && !IsSpace(s[i]);
  }

  /** A string with no white space at either end is its own strip. */
  lemma StripTrimmed(s: string)
    requires s == [] || (!IsSpace(s[0]) && !IsSpace(s[|s| - 1]))
    ensures Strip(s) == s
  {
  }

  /** `s` holds the character U+0000, which the framework's text fields reject. */
  predicate HasNull(s: string) {
    '\0' in s
  }

  /** Stripping removes white space only, so it neither adds nor removes a null character. */
  lemma NullSurvivesStrip(s: string)
    ensures HasNull(Strip(s)) <==> HasNull(s)
  {
    var t := Strip(s);
    var i := StripWindow(s);
    if HasNull(s) {
      var j :| 0 <= j < |s| && s[j] == '\0';
      assert !IsSpace(s[j]);
      assert t[j - i] == s[j];
    }
    if HasNull(t) {
      var j :| 0 <= j < |t| && t[j] == '\0';
      assert s[i + j] == t[j];
    }
  }

  // ---------------------------------------------------------------------------
  // Case-insensitive substring test (`title__icontains`)

  /** Lower-cases an ASCII capital letter and leaves every other character alone. */
  function AsciiLower(c: char): char {
    if 'A' <= c <= 'Z' then (c as int + 32) as char else c
  }

  function Lower(s: string): string {
    seq(|s|, i requires 0 <= i < |s| => AsciiLower(s[i]))
  }

  /** `q` occurs in `t` as a contiguous piece. */
  predicate Contains(t: string, q: string) {
    exists i :: 0 <= i <= |t| - |q| && OccursAt(t, q, i)
  }

  predicate OccursAt(t: string, q: string, i: nat)
    requires i + |q| <= |t|
  {
    t[i..i + |q|] == q
  }

  /** `q` occurs in `t` when letter case is ignored. */
  predicate ContainsIgnoringCase(t: string, q: string) {
    Contains(Lower(t), Lower(q))
  }

  /** Lower-casing is idempotent, so the test does not depend on the case of the query. */
  lemma ContainsIgnoresQueryCase(t: string, q: string)
    ensures ContainsIgnoringCase(t, Lower(q)) == ContainsIgnoringCase(t, q)
  {
    assert Lower(Lower(q)) == Lower(q);
  }

  // ---------------------------------------------------------------------------
  // Python's `int(str)` on a decimal string

  predicate IsDigit(c: char) {
    '0' <= c <= '9'
  }

  predicate AllDigits(s: string) {
    forall i :: 0 <= i < |s| ==> IsDigit(s[i])
  }

  function DigitValue(c: char): nat
    requires IsDigit(c)
  {
    c as int - '0' as int
  }

  /** The number a string of decimal digits denotes. */
  function DigitsValue(d: string): nat
    requires AllDigits(d)
    decreases |d|
  {
    if d == [] then 0 else DigitsValue(d[..|d| - 1]) * 10 + DigitValue(d[|d| - 1])
  }

  /**
    Python's `int(s)`: optional surrounding white space, an optional sign and
    at least one ASCII digit; anything else is a `ValueError`, here `None`.
   */
  function ParseInt(s: string): (r: Option<int>)
    ensures r.Some? ==> !IsBlank(s)
  {
    var t := Strip(s);
    StripEmptyIffBlank(s);
    if t == [] then None
    else if t[0] == '-' || t[0] == '+' then
      var d := t[1..];
      if d != [] && AllDigits(d) then
        var v: int := DigitsValue(d);
        Some(if t[0] == '-' then -v else v)
      else None
    else if AllDigits(t) then Some(DigitsValue(t))
    else None
  }

  function Digit(n: nat): char
    requires n < 10
  {
    ('0' as int + n) as char
  }

  /** Python's `str(n)` of a natural number: how a template renders a comment id. */
  function DecimalText(n: nat): (r: string)
    ensures r != [] && AllDigits(r)
    decreases n
  {
    if n < 10 then [Digit(n)] else DecimalText(n / 10) + [Digit(n % 10)]
  }

  lemma {:induction false} DigitsValueOfDecimalText(n: nat)
    ensures DigitsValue(DecimalText(n)) == n
    decreases n
  {
    if n >= 10 {
      var d := DecimalText(n);
      assert d[..|d| - 1] == DecimalText(n / 10);
      DigitsValueOfDecimalText(n / 10);
    }
  }

  /** A non-empty run of digits parses to the number it denotes. */
  lemma ParseDigits(d: string)
    requires d != [] && AllDigits(d)
    ensures ParseInt(d) == Some(DigitsValue(d))
  {
    assert IsDigit(d[0]) && IsDigit(d[|d| - 1]);
    StripTrimmed(d);
  }

  /** Parsing the rendered form of an id gives the id back. */
  lemma ParseDecimalText(n: nat)
    ensures ParseInt(DecimalText(n)) == Some(n)
  {
    ParseDigits(DecimalText(n));
    DigitsValueOfDecimalText(n);
  }

  /** A string with a character that is neither white space, a sign nor a digit does not parse. */
  lemma ParseRejectsLetters(s: string, k: nat)
    requires k < |s| && !IsSpace(s[k]) && !IsDigit(s[k]) && s[k] != '-' && s[k] != '+'
    ensures ParseInt(s) == None
  {
    var t := Strip(s);
    var i := StripWindow(s);
    assert i <= k < i + |t|;
    assert t[k - i] == s[k];
    assert t != [] && (t[0] == '-' || t[0] == '+') ==> k - i != 0 && t[1..][k - i - 1] == s[k];
  }
}

=== FILE: web.dfy ===
/**
  The request and response shapes the views exchange with the web layer.
  A view is modelled as a total function from the store and a request to a
  `Step`: the store afterwards and the response sent back.
 */
module Web {
  import opened Store

  /** `request.user`: the anonymous user or a signed-in user's id. */
  datatype Requester = Anonymous | Authenticated(id: UserId)

  /** `request.method == 'POST'` with its form data, or any other method. */
  datatype Request<T> = NonPost | Post(data: T)

  /** The pages a response redirects to or renders (URLs themselves are not modelled). */
  datatype Page =
    | ArticlePage(slug: Slug)
    | CommentsSection(slug: Slug)
    | LoginPage
    | HomePage
    | RegisterPage
    | EditProfilePage

  /** A redirect, a rendered page, the 404 of `get_object_or_404`, or an uncaught exception (HTTP 500). */
  datatype Response = Redirect(to: Page) | Render(page: Page) | NotFound | ServerError

  datatype Step = Step(store: Store, response: Response)

  /**
    `request.user.is_authenticated`: the authentication middleware loads the
    session's user row and falls back to the anonymous user when it is gone.
   */
  predicate KnownUser(st: Store, who: Requester) {
    who.Authenticated? && who.id in st.users
  }
}
